=== FILE: README.md ===
# Supermarket game core in Dafny

This project models the small state machines inside a first-person Unity
supermarket game, written as pure transition functions over immutable records:

- the two drafts of the `ShopItem` component:
  - the simple draft tracks held and placed flags;
  - the shelf-aware draft tracks held and on-shelf flags plus a shelf reference;
- the `PlayerInteraction` controller, which holds at most one item, tracks shelf
  placement every frame, and turns key presses into grab, place, throw, rotate
  and price actions;
- the shelf's highlight switch and its count of placed items;
- the shelf preview's lifecycle;
- the game clock: minute/hour/day rollover, once-per-day events, the day/night
  blend and the `HH:MM` display;
- the shop door's open/close schedule and its notification timer;
- the price-entry dialog, which pauses the game while it is open.

Engine calls become inputs. A ray cast is a record handed to the frame (hit or no
hit, what was hit, the hit point). `Physics.OverlapBox` is the list of colliders it
returned. `Random.Range` and `Random.insideUnitSphere` are sample parameters whose
preconditions are the ranges the engine draws from: the float overload includes
both bounds, the integer overload excludes the upper one. `float` is `real`.
`Vector3.Distance(a, b) <= d` is stated exactly, as
`d >= 0 && |a - b|² <= d²`.

Items and shelves live in maps keyed by id. A reference whose id is no longer in
the map stands for a destroyed object, which Unity's `== null` reports as null.

The shelf methods the controller calls (`HasSpace`, `GetNearestAvailableSlot`,
`AddItem`, `RemoveItem`) are not part of this model. Their answers arrive inside
the shelf ray record, and `AddItem`'s effect on the item is a function parameter.
The `GlobalConfig` singleton class is not part of this model either; its fields
appear as the `GameConfig.Shared` and `GameConfig.Schedule` records.

Behaviour of the code that the model keeps as written:

- Placement never refuses: without a placeable shelf, `PlaceItem` drops the item
  in front of the player.
- `SetPrice` in both item drafts stores any value. Only the dialog's confirm
  button checks for `price > 0`; its "use suggested" button does not check.
- The shelf's slot allocator (`HasSpace`, `GetNearestAvailableSlot`, `AddItem`)
  is outside this model. Nothing waits for a placed item to settle: placement
  takes effect in the frame of the key press.
- A new price tag replaces only an old tag that carries a `PriceTag` component.
  With a tag prefab lacking that component, every confirmation adds another tag.
- A held reference whose item was destroyed elsewhere is never cleared, so the
  controller stays "holding" and can no longer grab.

## Model

| member | source | states |
|---|---|---|
| ShopItem.Fresh | Assets/src/ShopItem.cs:11-18 | a new item is neither held nor placed and has no valid price |
| ShopItem.Awake | Assets/src/ShopItem.cs:23-39 | an empty barcode becomes the 9-digit spelling of the sample, which reads back as that sample, and an existing barcode is kept; a present body becomes interpolated with continuous collision detection; nothing else changes |
| ShopItem.OnGrab | Assets/src/ShopItem.cs:44-59 | held and not placed (so never both), body kinematic without gravity, collider a trigger; price, barcode and base price kept |
| ShopItem.OnPlace | Assets/src/ShopItem.cs:64-87 | placed and not held, both velocities zero, body kinematic without gravity, collider solid; price and identity kept |
| ShopItem.OnThrow | Assets/src/ShopItem.cs:92-109 | neither held nor placed, body dynamic under gravity, linear velocity equal to the argument, spin of norm at most 2 (twice a unit-ball sample), collider solid |
| ShopItem.SetPrice | Assets/src/ShopItem.cs:123-135 | only the assigned price changes, to the given value; `HasPrice` holds exactly when that value is positive |
| ShopItem.GetSuggestedPrice | Assets/src/ShopItem.cs:114-118 | with a sample in [-0.1, 0.1], the suggestion lies in [0.9·base, 1.1·base] for a non-negative base, and in the mirrored interval for a negative base |
| ShopItem.ExclusiveForever | Assets/src/ShopItem.cs:46-47 | after any sequence of grab, place, throw and price operations, an item is never both held and placed |
| ShopItem.PriceSurvivesMovement | Assets/src/ShopItem.cs:44-109 | grabs, placements and throws never change the assigned price or the barcode |
| ShopItem.LastPriceWins | Assets/src/ShopItem.cs:123-126 | the last price set survives any movement that follows it |
| Pricing.SuggestedPrice | Assets/src/GlobalConfig.cs:71-76 | `base·(1+v)` with v in [-variation, variation] lies within `base·(1 ± variation)`, on the side the sign of base dictates; a zero sample gives the base price |
| Pricing.TenPercentOfTen | Assets/src/ShopItem.cs:114-118 | a base price of 10 always suggests a price between 9 and 11 |
| Barcode.GenerateBarcode | Assets/src/GlobalConfig.cs:63-66 | the decimal spelling of a sample in [100000000, 999999999) is 9 digits with no leading zero and reads back as the sample |
| Barcode.InitBarcode | Assets/src/ShopItem.cs:28-31 | a non-empty barcode is kept; an empty one becomes the 9-digit spelling of the sample |
| Barcode.InitBarcodeStable | Assets/src/GlobalConfig.cs:54-57 | waking a second time keeps the barcode chosen by the first wake, whatever the second sample |
| Barcode.GenerateBarcodeInjective | Assets/src/GlobalConfig.cs:63-66 | distinct samples give distinct barcodes |
| Decimal.NatToString | Assets/src/ShopItem.cs:30 | `int.ToString()` of a non-negative value is a digit string with no leading zero, whose length is exactly the number of digits the value needs |
| Decimal.ParseNatToString | Assets/src/ShopItem.cs:30 | reading back the decimal spelling of n gives n |
| Decimal.DigitCount | Assets/src/ShopItem.cs:30 | a value in [10^(k-1), 10^k) is spelled with exactly k digits |
| Decimal.FormatD2 | Assets/src/TimeManager.cs:195 | the `D2` format has at least two characters, starts with '-' exactly for negatives, is all digits otherwise, and has exactly two characters for 0..99 |
| Decimal.FormatD2RoundTrip | Assets/src/TimeManager.cs:195 | reading back a `D2` field of a value in 0..99 gives the value |
| ShopItemOnShelf.Awake | Assets/src/GlobalConfig.cs:47-58 | remembers the starting parent; an empty barcode becomes the 9-digit spelling of the sample, which reads back as that sample; a non-empty one is kept; nothing else changes |
| ShopItemOnShelf.GetSuggestedPrice | Assets/src/GlobalConfig.cs:71-76 | the suggestion is bounded by `base·(1 ± variation)` for the configured variation |
| ShopItemOnShelf.SetPrice | Assets/src/GlobalConfig.cs:81-93 | stores any value with no positivity check, and only the price changes; `HasPrice` holds exactly when the value is positive |
| ShopItemOnShelf.OnGrabbed | Assets/src/GlobalConfig.cs:98-115 | held, not on a shelf, no shelf reference, body frozen, collider a trigger; body and collider present exactly when they were, velocities kept; identity, price, position and parent kept |
| ShopItemOnShelf.OnReleased | Assets/src/GlobalConfig.cs:120-134 | not held, body dynamic, collider solid; body and collider present exactly when they were, velocities kept; on-shelf flag and shelf reference left exactly as they were |
| ShopItemOnShelf.PlaceOnShelf | Assets/src/GlobalConfig.cs:139-153 | on that shelf, at that position, parented to it, body frozen and still present exactly when it was, velocities kept; the held flag and the collider are untouched |
| ShopItemOnShelf.RemoveFromShelf | Assets/src/GlobalConfig.cs:158-168 | the shelf told is exactly the referenced one (none without a reference); afterwards neither flag nor reference is set, and the item is back under its original parent |
| ShopItemOnShelf.RemoveFromShelfIdempotent | Assets/src/GlobalConfig.cs:158-168 | removing twice equals removing once, and the second removal tells no shelf |
| ShopItemOnShelf.ShelfLinkedForever | Assets/src/GlobalConfig.cs:98-168 | every transition keeps the on-shelf flag true exactly when a shelf is referenced |
| ShopItemOnShelf.GoodsSurviveMovement | Assets/src/GlobalConfig.cs:98-168 | movement never changes name, barcode, base price, category or assigned price |
| ShopItemOnShelf.ShelvedWhileHeld | Assets/src/GlobalConfig.cs:139-153 | placing a grabbed item on a shelf leaves it both held and on the shelf: this draft does not keep the two apart |
| Shelf.SearchBox | Assets/src/Shelf.cs:51-54 | the search box has the collider's centre, width and depth, and is 0.1 taller at the top and 0.1 lower at the bottom |
| Shelf.Highlight | Assets/src/Shelf.cs:75-90 | the flag becomes the argument; with a renderer, the highlight colour shows exactly when on; the count and components are untouched |
| Shelf.HighlightLastWins | Assets/src/Shelf.cs:75-77 | two highlight calls equal the last one alone, so repeating a call is idempotent |
| Shelf.CountPlaced | Assets/src/Shelf.cs:59-67 | the count is at most the number of overlaps, and is zero exactly when no overlap is a placed item |
| Shelf.CountPlacedIsCardinality | Assets/src/Shelf.cs:59-67 | the count equals the number of overlap positions holding a placed item |
| Shelf.CountIgnoresUnplaced | Assets/src/Shelf.cs:62-66 | a non-item collider or an unplaced item adds nothing to the count |
| Shelf.CountPlacedAppend | Assets/src/Shelf.cs:59-67 | the count over two batches of overlaps is the sum of their counts |
| Shelf.CountItemsOnShelf | Assets/src/Shelf.cs:45-70 | without a collider the shelf is unchanged; otherwise the stored count is the number of placed items among the overlaps, within [0, number of overlaps], and nothing else changes |
| ShelfPreview.Fresh | Assets/src/ShelfPreview.cs:21-22 | a new component has no preview object and is inactive |
| ShelfPreview.DestroyPreview | Assets/src/ShelfPreview.cs:175-183 | the preview object is gone; with one present, `isActive` is cleared; without one, nothing changes |
| ShelfPreview.CreatePreview | Assets/src/ShelfPreview.cs:27-46 | a null source changes nothing; otherwise a new hidden object named after the source and scaled by `previewScale` replaces the old one, and the component is inactive |
| ShelfPreview.ShowPreview | Assets/src/ShelfPreview.cs:130-141 | nothing without an object; otherwise it shows at the pose, tinted valid exactly when the flag says so, and becomes active |
| ShelfPreview.HidePreview | Assets/src/ShelfPreview.cs:163-170 | nothing without an object; otherwise the object is hidden and the component inactive |
| ShelfPreview.IsActive | Assets/src/ShelfPreview.cs:188-191 | on a synchronised component, true exactly when an object exists and is shown |
| ShelfPreview.DestroyAndHideIdempotent | Assets/src/ShelfPreview.cs:163-183 | destroying twice is destroying once; hiding twice is hiding once |
| ShelfPreview.ActiveImpliesObject | Assets/src/ShelfPreview.cs:27-183 | after any sequence of create, show, hide and destroy calls, `isActive` still reflects the object, so an active component has an object |
| PlayerInteraction.StartSatisfiesInv | Assets/src/PlayerInteraction.cs:55-61 | the initial controller (nothing held, no shelf, no preview) satisfies the controller invariant |
| PlayerInteraction.HighlightShelf | Assets/src/PlayerInteraction.cs:153-157 | only the named shelf's highlight changes, to the requested value |
| PlayerInteraction.HidePreview | Assets/src/PlayerInteraction.cs:249-255 | an existing preview is hidden and kept; nothing else changes |
| PlayerInteraction.ShowPreview | Assets/src/PlayerInteraction.cs:197-244 | nothing without a live held item; otherwise the preview exists and is shown at the position, turned by the current rotation, tinted valid exactly when asked |
| PlayerInteraction.CheckShelfPlacement | Assets/src/PlayerInteraction.cs:147-192 | placement becomes possible exactly when a shelf with space and a free slot is hit; the tracked shelf becomes the hit shelf with space, or none; a hit shelf with space makes the reported slot the target; a placeable target shows the preview valid there, and a shelf with space but no free slot shows it invalid at the hit point; without a tracked shelf the preview is hidden; afterwards only the tracked shelf is highlighted |
| PlayerInteraction.HandleHeldItem | Assets/src/PlayerInteraction.cs:132-142 | with a stale reference nothing happens; otherwise the item is pinned to the hand, and placement is possible exactly when the shelf ray reports a shelf with space and a free slot, whose position becomes the target and the shown preview's position |
| PlayerInteraction.GrabItem | Assets/src/PlayerInteraction.cs:315-333 | the controller holds the item with rotation reset to 0; the item is held, off every shelf, in the hand, frozen and pass-through, with its body and collider kept present exactly when they were, its velocities and its goods unchanged; the shelf it sat on, if any, is told; other items are untouched |
| PlayerInteraction.TryGrabItem | Assets/src/PlayerInteraction.cs:296-310 | the held reference changes only to a hit item that exists and is not already held; with no such item nothing happens |
| PlayerInteraction.DropPoint | Assets/src/PlayerInteraction.cs:357-367 | the drop point is 0.1 above the floor hit, or 2 units along the camera's forward without a hit |
| PlayerInteraction.LetGo | Assets/src/PlayerInteraction.cs:373-378 | afterwards nothing is held, placement is impossible and there is no preview |
| PlayerInteraction.PlaceItem | Assets/src/PlayerInteraction.cs:338-379 | nothing with a stale reference; otherwise the controller always lets go. The shelf branch (placeable and tracked shelf) hands the item to `AddItem` at the target and un-highlights the shelf. The other branch releases the item at the drop point, dynamic and solid, with body and collider kept present exactly when they were and velocities unchanged. No other item changes and no new shelf is highlighted |
| PlayerInteraction.ThrowVelocity | Assets/src/PlayerInteraction.cs:394-395 | the launch velocity is forward·throwForce plus up·throwUpwardForce, component by component |
| PlayerInteraction.ThrowItem | Assets/src/PlayerInteraction.cs:384-408 | nothing with a stale reference; otherwise the item is released, dynamic and solid, its body and collider present exactly when they were, a present body launched at the throw velocity with spin at most 2, its shelf flag and goods unchanged, and the controller lets go |
| PlayerInteraction.OpenPriceMenu | Assets/src/PlayerInteraction.cs:425-434 | a request exists exactly when a live item is held; it names that item, and its suggestion lies within `base·(1 ± variation)` |
| PlayerInteraction.GrabIgnoredWhileHolding | Assets/src/PlayerInteraction.cs:263-266 | while holding, a grab press makes no difference to the frame |
| PlayerInteraction.PlaceShadowsThrow | Assets/src/PlayerInteraction.cs:269-278 | with place pressed, the throw key makes no difference: place and throw never both take effect |
| PlayerInteraction.PlaceAlwaysLetsGo | Assets/src/PlayerInteraction.cs:338-379 | with a live held item, a place press always ends the frame holding nothing, with no preview and no price request: placement is never refused |
| PlayerInteraction.RotationOnlyWhileHolding | Assets/src/PlayerInteraction.cs:280-290 | while still holding, rotation grows by speed·dt exactly when R is held, and a price request is made exactly when P is pressed |
| PlayerInteraction.ShelfPlacementKeepsHeldFlag | Assets/src/PlayerInteraction.cs:343-351 | if `AddItem` leaves the held flag alone, an item placed on a shelf stays marked as held after the controller lets go, so it can no longer be grabbed |
| PlayerInteraction.UpdateWithStaleHold | Assets/src/PlayerInteraction.cs:97-108 | with a held reference to a destroyed item, a frame keeps the controller holding that reference, changes no item or shelf, asks no shelf to forget anything and opens no price menu |
| PlayerInteraction.StaleHoldIsStuck | Assets/src/PlayerInteraction.cs:260-290 | over any run of frames a stale hold is never cleared: the controller keeps holding it and no item or shelf changes |
| PlayerInteraction.HandleInput | Assets/src/PlayerInteraction.cs:260-291 | the input pass keeps the controller invariant (holding exactly when an item is referenced; placement and preview only while holding; only the tracked shelf highlighted; a live held item marked held); no item or shelf appears or vanishes; a shelf is told to forget an item only on a grab press while not holding; a price request names the live held item and follows a price press; with no key pressed nothing happens. A grab press while holding nothing, with neither place nor throw pressed, ends the frame holding the item the grab ray offers whenever it offers one. A throw press with a live held item and no place press ends the frame holding nothing, with that item released and its body, if present, moving at the throw velocity |
| PlayerInteraction.GrabKey | Assets/src/PlayerInteraction.cs:262-266 | the grab key acts only when pressed while holding nothing; then the offered item becomes the live held item with rotation 0, and otherwise nothing changes |
| PlayerInteraction.PlaceKey | Assets/src/PlayerInteraction.cs:268-272 | the place key acts only when pressed while holding a live item, and then the controller lets go with its rotation kept |
| PlayerInteraction.ThrowKey | Assets/src/PlayerInteraction.cs:274-278 | the throw key acts only when pressed while holding a live item; then the controller lets go and the item is released with its body, if present, at the throw velocity |
| PlayerInteraction.RotateKey | Assets/src/PlayerInteraction.cs:280-284 | the rotate key changes nothing unless held while holding; then the rotation grows by speed·dt and nothing else changes |
| PlayerInteraction.RotationNeedsHolding | Assets/src/PlayerInteraction.cs:262-284 | without a grab, a controller holding nothing keeps its rotation; placing or throwing a live held item keeps it too, because letting go precedes the rotate check; a fresh grab restarts it from 0, plus speed·dt when R is held |
| PlayerInteraction.HandleHeldItemKeepsInv | Assets/src/PlayerInteraction.cs:132-142 | the held-item pass keeps the invariant, and afterwards the tracked shelf is exactly the highlighted one |
| PlayerInteraction.Update | Assets/src/PlayerInteraction.cs:97-109 | a whole frame keeps the controller invariant and the sets of items and shelves; shelf notices and price requests only follow the matching key presses; a frame with nothing held and no key pressed changes nothing. While a live item is held and neither place nor throw is pressed, the held-item pass runs: the item is pinned to the hand position with nothing else about it changed, and placement is possible exactly when the shelf ray offers a free slot. Without a held item, a grab press with neither place nor throw pressed ends holding the offered item |
| PlayerInteraction.RunKeepsInv | Assets/src/PlayerInteraction.cs:97-109 | any sequence of frames keeps the controller invariant |
| GameConfig.TimeOfDay | Assets/src/TimeManager.cs:119 | for an in-range clock, the fractional time of day lies within the current hour |
| TimeManager.Start | Assets/src/TimeManager.cs:38-41 | the clock is set to the wake-up hour and minute, the player is not awake, and no event has been announced |
| TimeManager.SetWakeUpTime | Assets/src/TimeManager.cs:201-206 | only the wake-up hour and minute change, to the arguments |
| TimeManager.WakeUpTimeTakesEffect | Assets/src/TimeManager.cs:201-206 | a new wake-up time moves only the wake-up event's threshold, and the next start puts the clock exactly there |
| TimeManager.GameMinutesPerFrame | Assets/src/TimeManager.cs:56-57 | a frame advances `dt·timeScale/60` game minutes, never negative for non-negative inputs |
| TimeManager.ResetDailyFlags | Assets/src/TimeManager.cs:175-186 | all six announcements are forgotten; awake, shop-open and bar-open are cleared; the time and day are unchanged |
| TimeManager.UpdateTime | Assets/src/TimeManager.cs:54-74 | absolute minutes grow by exactly the increment; an in-range clock stays in range for increments below 60; the hour moves only on a minute rollover; a new day begins, and the flags reset, exactly on an hour rollover |
| TimeManager.CheckAll | Assets/src/TimeManager.cs:122-169 | the events fired are exactly those listed that are due, each at most once; they become announced; waking sets awake and the bar event sets bar-open, and nothing else changes |
| TimeManager.CheckTimeEvents | Assets/src/TimeManager.cs:117-170 | every event due and not yet announced today fires, once, in one call, in the declared order (wake-up, shop open, lunch close, afternoon open, evening close, bar open); waking compares against the wake-up hour only |
| TimeManager.DueInIgnores | Assets/src/TimeManager.cs:122-169 | announcing one event leaves unchanged which of the other events are due |
| TimeManager.CheckAllInOrder | Assets/src/TimeManager.cs:122-169 | for an order listing no event twice, the events fired are exactly that order filtered by being due, in that order |
| TimeManager.Update | Assets/src/TimeManager.cs:44-49 | one clock frame: absolute minutes grow by the increment and the day counter by one exactly on a new day; the events fired are exactly those whose time has come and that were not announced today (all of them after a new day), each once; afterwards the announced set is the surviving one plus those fired |
| TimeManager.EventListed | Assets/src/TimeManager.cs:122-169 | every daily event is among those the check visits |
| TimeManager.OccurrencesAppend | Assets/src/TimeManager.cs:122-169 | the occurrences of an event in two concatenated logs add up |
| TimeManager.OccurrencesNoRepeats | Assets/src/TimeManager.cs:122-169 | in a log without repeats, an event occurs once if present and never otherwise |
| TimeManager.AtMostOncePerDay | Assets/src/TimeManager.cs:54-186 | over any run of frames, each event fires at most once per day: at most days + 1 times, and at most days times if it was already announced at the start |
| TimeManager.AtMostOnceWithinDay | Assets/src/TimeManager.cs:122-169 | within a day, each event fires at most once, and never if it was already announced |
| TimeManager.DayNightBlend | Assets/src/TimeManager.cs:86-103 | the blend always lies in [0, 1] |
| TimeManager.FullDaylight | Assets/src/TimeManager.cs:88-95 | the blend is 1 exactly from 6:00 to 20:00 |
| TimeManager.FullNight | Assets/src/TimeManager.cs:92-103 | the blend is 0 exactly up to 4:00 and from 22:00 on |
| TimeManager.BlendSeams | Assets/src/TimeManager.cs:88-99 | the dawn and dusk ramps meet the flat pieces at 4, 6, 20 and 22 |
| TimeManager.BlendMonotoneOnRamps | Assets/src/TimeManager.cs:92-99 | the blend rises through the dawn ramp and falls through the dusk ramp |
| TimeManager.GetFormattedTime | Assets/src/TimeManager.cs:191-196 | for an in-range clock the display is 5 characters, two digits, a colon, two digits |
| TimeManager.FormattedTimeRoundTrip | Assets/src/TimeManager.cs:191-196 | reading back the two fields gives the floored hour and the floored minute |
| ShopManager.CheckPlayerNearDoor | Assets/src/ShopManager.cs:71-77 | with the player or the door missing nothing changes; otherwise the door is usable exactly when the distance is at most `doorInteractionDistance`, and only that flag changes |
| ShopManager.SquareCompare | Assets/src/ShopManager.cs:75-76 | for a non-negative distance, comparing squares decides `distance <= limit` exactly |
| ShopManager.ShowNotification | Assets/src/ShopManager.cs:186-195 | with both panel and text, the message shows, the panel is active and the timer is the configured duration; otherwise nothing changes |
| ShopManager.UpdateNotification | Assets/src/ShopManager.cs:200-215 | while showing, the timer drops by dt and showing continues exactly while it stays positive; the panel hides when showing stops |
| ShopManager.NotificationExpires | Assets/src/ShopManager.cs:186-215 | a notification just shown disappears after one update exactly when dt reaches the duration |
| ShopManager.OpenShop | Assets/src/ShopManager.cs:125-130 | only the shared open flag changes, and it becomes true |
| ShopManager.CloseShop | Assets/src/ShopManager.cs:135-140 | only the shared open flag changes, and it becomes false |
| ShopManager.OpenCloseInverse | Assets/src/ShopManager.cs:125-140 | closing undoes opening a closed shop, and opening undoes closing an open one |
| ShopManager.HandleShopInteraction | Assets/src/ShopManager.cs:82-120 | no transition unless the door is usable, the player exists and E is pressed; with all three the transition taken is exactly the first applicable one of the else-if chain, if any. Opening requires a closed shop and closing an open one. Only the open flag of the shared state changes. A half-day flag is set exactly when that half-day's opening is taken. With both panel and text present, each transition shows its own notice with the full countdown |
| ShopManager.TransitionGuards | Assets/src/ShopManager.cs:89-119 | the morning opening happens exactly under its guard; lunch close, afternoon reopening and evening close each imply their guards; an open shop past evening close always has a transition |
| ShopManager.MorningFlagShadowsEveningClose | Assets/src/ShopManager.cs:98-119 | after a morning opening, any close of an open shop past lunch-close time is the lunch close, so the evening close is never taken that day |
| ShopManager.AfternoonReopeningClosedForLunch | Assets/src/ShopManager.cs:98-112 | after a morning opening, an afternoon reopening is undone by the next usable press, which is again the lunch close |
| ShopManager.ResetDailyShopFlags | Assets/src/ShopManager.cs:177-181 | both per-day flags are cleared and nothing else changes |
| ShopManager.ResetAllowsReopening | Assets/src/ShopManager.cs:86-112 | after the new-day reset, with the shop closed and the door usable, a press opens for the morning inside the morning window, and otherwise opens for the afternoon inside the afternoon window |
| ShopManager.OnMorningOpenTime | Assets/src/ShopManager.cs:145-151 | a reminder shows only while the shop is closed |
| ShopManager.OnLunchClose | Assets/src/ShopManager.cs:153-159 | a reminder shows only while the shop is open |
| ShopManager.OnAfternoonOpenTime | Assets/src/ShopManager.cs:161-167 | a reminder shows only while the shop is closed |
| ShopManager.OnEveningClose | Assets/src/ShopManager.cs:169-175 | a reminder shows only while the shop is open |
| ShopManager.RunPresses | Assets/src/ShopManager.cs:61-66 | over a run of frames, one transition report per frame, and a set half-day flag stays set |
| ShopManager.OpensAtMostOncePerHalfDay | Assets/src/ShopManager.cs:89-112 | without a day reset, the shop opens at most once in the morning and at most once in the afternoon, never once that flag is set, and every opening leaves its flag set |
| PriceUI.StartedSatisfiesInv | Assets/src/PriceUI.cs:40-47 | the started dialog has no item, runs at normal speed and satisfies the dialog invariant |
| PriceUI.OnShowPriceMenu | Assets/src/PriceUI.cs:78-112 | a null item changes nothing; otherwise the dialog records the item and the suggestion, shows a present panel and pauses the game (timeScale 0) |
| PriceUI.CloseMenu | Assets/src/PriceUI.cs:165-174 | the item is forgotten, the game resumes (timeScale 1) and a present panel is hidden |
| PriceUI.RemoveFirstPriced | Assets/src/PriceUI.cs:183-188 | without a price-showing tag nothing is removed; otherwise exactly one tag goes and the price-showing count drops by one |
| PriceUI.FirstPriced | Assets/src/PriceUI.cs:183 | the tag `GetComponentInChildren<PriceTag>` finds: a price-showing tag with only bare tags before it |
| PriceUI.RemoveFirstPricedSplits | Assets/src/PriceUI.cs:183-188 | the removed tag is that first price-showing one, and every other tag stays in order |
| PriceUI.PricedCountAppend | Assets/src/PriceUI.cs:190 | price-showing tags count additively when a tag is appended |
| PriceUI.CreatePriceTag | Assets/src/PriceUI.cs:179-200 | needs the prefab and a live item; otherwise nothing happens. The newest tag is the new one, showing the price exactly when the prefab has `PriceTag`. One old price-showing tag is removed if there is one, so the tag count grows by one only when there was none. Bare tags are never removed. Other items' tags are untouched, and no item ever carries two price-showing tags |
| PriceUI.OnConfirmPrice | Assets/src/PriceUI.cs:117-140 | no item, an unparsable entry or a price of at most 0 changes nothing at all; a positive price becomes the item's price, valid under `HasPrice`, and the dialog closes; no other item changes |
| PriceUI.OnUseSuggestedPrice | Assets/src/PriceUI.cs:145-152 | with a live item the suggestion is stored with no positivity check and the dialog closes; no other item changes |
| PriceUI.OnCancel | Assets/src/PriceUI.cs:157-160 | the dialog closes and the game resumes; no item or tag changes |
| PriceUI.ConfirmChangesOnlyPrice | Assets/src/PriceUI.cs:123-130 | confirming changes at most the assigned price of any item |
| PriceUI.ConfirmLeavesOneTag | Assets/src/PriceUI.cs:183-199 | with a prefab carrying `PriceTag`, a positive confirmation leaves exactly one price-showing tag, the newest, showing the confirmed price; an item whose tags all showed prices ends with that one tag |
| PriceUI.PlainTagsPileUp | Assets/src/PriceUI.cs:183-199 | with a prefab lacking `PriceTag`, each positive confirmation appends one bare tag and removes none |
| PriceUI.SuggestionBypassesCheck | Assets/src/PriceUI.cs:123-152 | a non-positive suggestion is stored by "use suggested", leaving the item without a valid price, while typing the same value is refused |
| PriceUI.DialogInvariants | Assets/src/PriceUI.cs:78-174 | over any sequence of show, confirm, use-suggested and cancel events: the game is paused exactly while the dialog holds an item, no item carries two price-showing tags, and no item appears or vanishes |

## Left out

- `FPSController.cs`: movement, mouse look, crouch and head bob are physics and camera code with no discrete state worth proving.
- `TimeUI.cs`, `InteractionPromptUI.cs` and `PriceTag.cs`: on-screen text and billboard rendering. A tag appears only as the price it shows, or as a bare tag without a `PriceTag` component.
- The search of `GetComponentInChildren<PriceTag>` covers the item's whole hierarchy. The model searches only the tags the dialog created, assuming the item's own objects carry no `PriceTag`.
- `Debug.Log` and `Debug.LogWarning` calls, and `CheckForInteractables` in `PlayerInteraction.cs`, which only draws a debug ray.
- Rendering: light colour, intensity and sun rotation in `UpdateLighting` (only the blend factor is modelled); mesh copying and preview materials; shelf colours, beyond whether the highlight colour shows.
- The shelf API that `PlayerInteraction.cs` and the shelf-aware item call (`HasSpace`, `GetNearestAvailableSlot`, `AddItem`, `RemoveItem`) is not part of this model. Its answers are inputs, and `RemoveItem` is reported only as which shelf was told.
- The `GlobalConfig` class (`NextDay`, `GetDayName`, the singleton) is not part of this model. Only its fields appear, as `GameConfig.Shared` and `GameConfig.Schedule`; a new day increments a day counter.
- Transform rotations: pinning the held item's rotation to the hand each frame, and the local rotation reset on grab. The preview's yaw is kept as a number.
- `Rigidbody` and `Collider` settings beyond kinematic, gravity, velocities and the trigger flag. The rigidbody fetched in `ThrowItem` is taken to be the item's own body.
- Event subscription and unsubscription (`Start`/`OnDestroy` in the shop, clock and dialog components): each handler is a separate function that the caller invokes.
- Unity's deferred `Destroy`: the model removes a replaced price tag or preview at once, not at the end of the frame.
- Unity's fake-null is approximated: a destroyed object is an id missing from the map, and a dialog whose item was destroyed behaves as if it had none.
- Single-precision rounding: every `float` is a `real`. A zero `timeScale`, which gives an infinite game hour in `float`, is modelled directly as zero progress.
- UI text (item name, suggested-price label, input-field contents and focus). Parsing the input field is an input: the parsed value, or none.
- TimeManager.UpdateTime: a frame advancing 60 or more game minutes rolls over only once, as the code does; the in-range guarantee is stated only for increments below 60.
- ShopManager.RunPresses: the shared clock state for each frame is an input, and the clock's own day reset is not interleaved, so the at-most-once result covers a single day.

=== FILE: barcode.dfy ===
/** Barcode assignment shared by both item drafts: an empty barcode is replaced,
    when the item wakes, by `Random.Range(100000000, 999999999).ToString()`. */
module Barcode {
  import opened Decimal

  /** Inclusive lower and exclusive upper bound of the integer overload of `Random.Range`. */
  const BarcodeMin: int := 100000000
  const BarcodeMax: int := 999999999

  predicate BarcodeSample(r: int) {
    BarcodeMin <= r < BarcodeMax
  }

  /** The decimal spelling of the sample: nine digits without a leading zero,
      reading back as the sample. */
  function GenerateBarcode(r: int): (b: string)
    requires BarcodeSample(r)
    ensures |b| == 9 && AllDigits(b) && b[0] != '0'
    ensures ParseNat(b) == r
  {
    assert Pow10(8) == BarcodeMin && Pow10(9) == BarcodeMax + 1;
    DigitCount(r, 9);
    ParseNatToString(r);
    NatToString(r)
  }

  /** The barcode an item carries after waking: unchanged unless it was empty. */
  function InitBarcode(current: string, r: int): (b: string)
    requires BarcodeSample(r)
    ensures |current| > 0 ==> b == current
    ensures |current| == 0 ==> |b| == 9 && AllDigits(b) && ParseNat(b) == r
    ensures |b| > 0
  {
    if |current| == 0 then GenerateBarcode(r) else current
  }

  /** Waking twice keeps the barcode chosen the first time, whatever the second sample. */
  lemma InitBarcodeStable(current: string, r1: int, r2: int)
    requires BarcodeSample(r1) && BarcodeSample(r2)
    ensures InitBarcode(InitBarcode(current, r1), r2) == InitBarcode(current, r1)
  {
  }

  /** Distinct samples give distinct barcodes. */
  lemma GenerateBarcodeInjective(r1: int, r2: int)
    requires BarcodeSample(r1) && BarcodeSample(r2)
    ensures GenerateBarcode(r1) == GenerateBarcode(r2) ==> r1 == r2
  {
  }
}

=== FILE: decimal.dfy ===
/** Decimal digit strings: C#'s `int.ToString()` for non-negative values and the
    two-digit `D2` format used by the game clock. */
module Decimal {

  predicate IsDigit(c: char) {
    '0' <= c <= '9'
  }

  predicate AllDigits(s: string) {
    forall i :: 0 <= i < |s| ==> IsDigit(s[i])
  }

  function Pow10(k: nat): (r: nat)
    ensures r >= 1
  {
    if k == 0 then 1 else 10 * Pow10(k - 1)
  }

  function DigitChar(d: nat): (c: char)
    requires d < 10
    ensures IsDigit(c)
  {
    ('0' as int + d) as char
  }

  function DigitValue(c: char): (d: nat)
    requires IsDigit(c)
    ensures d < 10
  {
    (c as int - '0' as int) as nat
  }

  /** The shortest decimal spelling of `n`: digits only, no leading zero
      except for `n == 0` itself, and exactly as many digits as `n` needs. */
  function NatToString(n: nat): (s: string)
    ensures |s| >= 1 && AllDigits(s)
    ensures s[0] != '0' || n == 0
    ensures n < Pow10(|s|)
    ensures n == 0 || Pow10(|s| - 1) <= n
  {
    if n < 10 then [DigitChar(n)] else NatToString(n / 10) + [DigitChar(n % 10)]
  }

  /** Reads a digit string as a number (most significant digit first). */
  function ParseNat(s: string): nat
    requires AllDigits(s)
  {
    if |s| == 0 then 0 else 10 * ParseNat(s[..|s| - 1]) + DigitValue(s[|s| - 1])
  }

  lemma DigitRoundTrip(d: nat)
    requires d < 10
    ensures DigitValue(DigitChar(d)) == d
  {
  }

  /** Reading back the decimal spelling of `n` gives `n`. */
  lemma {:induction false} ParseNatToString(n: nat)
    ensures ParseNat(NatToString(n)) == n
  {
    var s := NatToString(n);
    if n < 10 {
      DigitRoundTrip(n);
      assert s[..|s| - 1] == [];
    } else {
      var p := NatToString(n / 10);
      assert s == p + [DigitChar(n % 10)];
      assert s[..|s| - 1] == p;
      DigitRoundTrip(n % 10);
      ParseNatToString(n / 10);
    }
  }

  /** The length of the decimal spelling is fixed by the decade `n` lies in. */
  lemma DigitCount(n: nat, k: nat)
    requires 1 <= k
    requires Pow10(k - 1) <= n < Pow10(k)
    ensures |NatToString(n)| == k
  {
    var s := NatToString(n);
    if |s| < k {
      Pow10Monotone(|s|, k - 1);
    } else if |s| > k {
      Pow10Monotone(k, |s| - 1);
    }
  }

  lemma {:induction false} Pow10Monotone(a: nat, b: nat)
    requires a <= b
    ensures Pow10(a) <= Pow10(b)
  {
    if a < b {
      Pow10Monotone(a, b - 1);
    }
  }

  /** `s` left-padded with '0' to at least two characters. */
  function PadTwo(s: string): (r: string)
    requires |s| >= 1
    ensures |r| == if |s| >= 2 then |s| else 2
    ensures |s| >= 2 ==> r == s
    ensures |s| == 1 ==> r == ['0', s[0]]
  {
    if |s| >= 2 then s else "0" + s
  }

  /** C#'s `n.ToString("D2")`: the decimal spelling of `|n|` padded to at least two
      digits, preceded by a minus sign when `n` is negative. */
  function FormatD2(n: int): (r: string)
    ensures |r| >= 2
    ensures n < 0 <==> r[0] == '-'
    ensures n >= 0 ==> AllDigits(r)
    ensures 0 <= n < 100 ==> |r| == 2
  {
    var digits := PadTwo(NatToString(if n < 0 then -n else n));
    if n < 0 then "-" + digits else digits
  }

  lemma ParseTwo(a: char, b: char)
    requires IsDigit(a) && IsDigit(b)
    ensures ParseNat([a, b]) == 10 * DigitValue(a) + DigitValue(b)
  {
    assert [a, b][..1] == [a];
    assert [a][..0] == [];
    assert ParseNat([a]) == 10 * ParseNat([]) + DigitValue(a);
    assert ParseNat([a, b]) == 10 * ParseNat([a]) + DigitValue(b);
  }

  /** Reading back a two-digit `D2` field gives the number that was formatted. */
  lemma FormatD2RoundTrip(n: int)
    requires 0 <= n < 100
    ensures ParseNat(FormatD2(n)) == n
  {
    var s := NatToString(n);
    ParseNatToString(n);
    if n < 10 {
      assert s == [DigitChar(n)];
      ParseTwo('0', DigitChar(n));
      DigitRoundTrip(n);
    } else {
      assert s == NatToString(n / 10) + [DigitChar(n % 10)];
      assert NatToString(n / 10) == [DigitChar(n / 10)];
      ParseTwo(DigitChar(n / 10), DigitChar(n % 10));
      DigitRoundTrip(n / 10);
      DigitRoundTrip(n % 10);
    }
  }
}

=== FILE: game_config.dfy ===
/** The fields of the `GlobalConfig` singleton that the clock and the shop read
    and write. The `GlobalConfig` class itself is not part of this model: its
    day-name table and `NextDay` are represented only by a day counter, and its
    schedule thresholds are whatever values it is configured with. */
module GameConfig {

  /** Configured times of day, in hours (fractional), and the clock speed in game
      hours per real hour. */
  datatype Schedule = Schedule(
    wakeUpHour: real,
    wakeUpMinute: real,
    morningOpenTime: real,
    lunchCloseTime: real,
    afternoonOpenTime: real,
    eveningCloseTime: real,
    barOpenTime: real,
    timeScale: real)

  /** The mutable state shared through the singleton. */
  datatype Shared = Shared(
    currentHour: real,
    currentMinute: real,
    day: nat,
    playerIsAwake: bool,
    isShopOpen: bool,
    isBarOpen: bool)

  /** Hour and minute are within one day. */
  predicate ClockInRange(c: Shared) {
    0.0 <= c.currentMinute < 60.0 && 0.0 <= c.currentHour < 24.0
  }

  /** `currentHour + currentMinute / 60`: the time of day in fractional hours. */
  function TimeOfDay(c: Shared): (t: real)
    ensures ClockInRange(c) ==> c.currentHour <= t < c.currentHour + 1.0
  {
    c.currentHour + c.currentMinute / 60.0
  }

  /** Minutes elapsed since midnight of day 0: the clock's absolute reading. */
  function AbsoluteMinutes(c: Shared): real {
    (c.day as real) * 1440.0 + c.currentHour * 60.0 + c.currentMinute
  }
}

=== FILE: geometry.dfy ===
/** Vectors, orientations and object handles shared by every component.
    Unity's `Vector3` is a triple of `float`s; here it is a triple of reals. */
module Geometry {

  datatype Vec3 = Vec3(x: real, y: real, z: real)

  /** Orientation of a transform: either a yaw about the world up axis (what
      `Quaternion.Euler(0, deg, 0)` builds) or an arbitrary quaternion handed in by a caller. */
  datatype Rotation = Yaw(degrees: real) | Quaternion(qx: real, qy: real, qz: real, qw: real)

  const Zero: Vec3 := Vec3(0.0, 0.0, 0.0)
  const Up: Vec3 := Vec3(0.0, 1.0, 0.0)

  function Add(a: Vec3, b: Vec3): Vec3 {
    Vec3(a.x + b.x, a.y + b.y, a.z + b.z)
  }

  function Scale(a: Vec3, k: real): Vec3 {
    Vec3(a.x * k, a.y * k, a.z * k)
  }

  function Dot(a: Vec3, b: Vec3): real {
    a.x * b.x + a.y * b.y + a.z * b.z
  }

  /** Squared Euclidean length; `Vector3.Distance` is the square root of this applied to a difference. */
  function NormSq(a: Vec3): real {
    Dot(a, a)
  }

  function DistSq(a: Vec3, b: Vec3): real {
    NormSq(Vec3(a.x - b.x, a.y - b.y, a.z - b.z))
  }

  /** A sample of `Random.insideUnitSphere`: a point of the closed unit ball. */
  predicate InUnitBall(v: Vec3) {
    NormSq(v) <= 1.0
  }
}

/** Stable identities standing in for object references. A reference the model
    holds to an id that is no longer present in the scene behaves like Unity's
    `== null` on a destroyed object. */
module Handles {
  type ItemId = nat
  type ShelfId = nat
}

=== FILE: optional.dfy ===
/** The absent-or-present value that stands in for a nullable reference. */
module Optional {
  datatype Option<+T> = None | Some(value: T)
}

=== FILE: physics.dfy ===
/** The parts of Unity's `Rigidbody` and `Collider` components that the items write. */
module Physics {
  import opened Geometry
  import opened Optional

  datatype Rigidbody = Rigidbody(
    isKinematic: bool,
    useGravity: bool,
    linearVelocity: Vec3,
    angularVelocity: Vec3,
    interpolate: bool,
    continuousCollision: bool)

  datatype Collider = Collider(isTrigger: bool)

  /** A kinematic body without gravity: the engine no longer moves it. */
  predicate Frozen(rb: Option<Rigidbody>) {
    rb.Some? ==> rb.value.isKinematic && !rb.value.useGravity
  }

  /** A dynamic body under gravity: the engine integrates it again. */
  predicate Dynamic(rb: Option<Rigidbody>) {
    rb.Some? ==> !rb.value.isKinematic && rb.value.useGravity
  }

  predicate PassThrough(col: Option<Collider>) {
    col.Some? ==> col.value.isTrigger
  }

  predicate Solid(col: Option<Collider>) {
    col.Some? ==> !col.value.isTrigger
  }

  /** Both velocities of a present body are what they were before. */
  predicate KeepsVelocity(after: Option<Rigidbody>, before: Option<Rigidbody>) {
    after.Some? && before.Some? ==>
      after.value.linearVelocity == before.value.linearVelocity
      && after.value.angularVelocity == before.value.angularVelocity
  }

  function Freeze(rb: Option<Rigidbody>): Option<Rigidbody> {
    if rb.Some? then Some(rb.value.(isKinematic := true, useGravity := false)) else rb
  }

  function Unfreeze(rb: Option<Rigidbody>): Option<Rigidbody> {
    if rb.Some? then Some(rb.value.(isKinematic := false, useGravity := true)) else rb
  }

  function SetTrigger(col: Option<Collider>, trigger: bool): Option<Collider> {
    if col.Some? then Some(Collider(trigger)) else col
  }
}

=== FILE: player_interaction.dfy ===
/** The interaction controller of `Assets/src/PlayerInteraction.cs`: it holds at
    most one item, re-evaluates shelf placement every frame while holding, and
    turns key presses into grab, place, throw, rotate and price actions.

    Engine calls become inputs. Each ray cast of a frame arrives as a record in
    `Frame`; the shelf's `HasSpace` and `GetNearestAvailableSlot` answers arrive
    inside the shelf ray record; the effect of `Shelf.AddItem` on the item is the
    function `Settings.addItem`, because the shelf's slot bookkeeping is not part
    of this model. Items live in a map keyed by id: a held id that is no longer
    in the map is an item destroyed behind the controller's back, which the
    source sees as `heldItem == null`. */
module PlayerInteraction {
  import opened Geometry
  import opened Optional
  import opened Handles
  import opened Physics
  import Items = ShopItemOnShelf
  import Shelf
  import ShelfPreview
  import Pricing

  datatype Controller = Controller(
    heldItem: Option<ItemId>,
    highlightedShelf: Option<ShelfId>,
    previewObject: Option<ShelfPreview.PreviewObject>,
    isHoldingItem: bool,
    canPlaceOnShelf: bool,
    targetPlacementPosition: Vec3,
    currentRotation: real)

  datatype Scene = Scene(
    ctl: Controller,
    items: map<ItemId, Items.Item>,
    shelves: map<ShelfId, Shelf.Shelf>)

  /** Inspector settings and the configuration values the controller reads,
      plus the unseen `Shelf.AddItem` as its effect on the item. */
  datatype Settings = Settings(
    throwForce: real,
    throwUpwardForce: real,
    objectRotationSpeed: real,
    priceSuggestionVariation: real,
    addItem: (Items.Item, ShelfId, Vec3) -> Items.Item)

  /** Result of the grab ray (item layer, grab distance): nothing hit, or a
      collider that may or may not carry an item. */
  datatype ItemRay = NoItemHit | ItemHit(item: Option<ItemId>)

  /** Result of the placement ray (shelf layer): nothing hit, or a collider that
      may or may not be a shelf, with the hit point and the shelf's answers to
      `HasSpace()` and `GetNearestAvailableSlot(point)`. */
  datatype ShelfRay =
    | NoShelfHit
    | ShelfHit(shelf: Option<ShelfId>, point: Vec3, hasSpace: bool, slot: Vec3, hasSlot: bool)

  /** Result of the 3-unit ray (all layers) cast when dropping an item. */
  datatype FloorRay = NoFloorHit | FloorHit(point: Vec3)

  /** Everything one `Update` reads: key edges, elapsed time, the hand and
      camera poses, the ray results and the random samples. */
  datatype Frame = Frame(
    grabPressed: bool,
    placePressed: bool,
    throwPressed: bool,
    rotateHeld: bool,
    pricePressed: bool,
    deltaTime: real,
    handPosition: Vec3,
    cameraPosition: Vec3,
    cameraForward: Vec3,
    grabRay: ItemRay,
    shelfRay: ShelfRay,
    floorRay: FloorRay,
    spin: Vec3,
    priceSample: real)

  /** The random samples of a frame lie in the ranges `Random` draws from. */
  predicate FrameOk(f: Frame, st: Settings) {
    InUnitBall(f.spin) && Pricing.VariationSample(st.priceSuggestionVariation, f.priceSample)
  }

  /** The request `OpenPriceMenu` broadcasts to the price dialog. */
  datatype PriceRequest = PriceRequest(item: ItemId, suggested: real)

  /** What an action told the outside world besides the scene change: the shelf
      asked to forget a re-grabbed item, and a price-menu request. */
  datatype Step = Step(scene: Scene, unshelvedFrom: Option<ShelfId>, priceRequest: Option<PriceRequest>)

  /** The controller's fields as `Start` leaves them. */
  const Idle: Controller := Controller(None, None, None, false, false, Zero, 0.0)

  /** The held reference denotes an item that still exists. */
  predicate HeldLive(s: Scene) {
    s.ctl.heldItem.Some? && s.ctl.heldItem.value in s.items
  }

  /** The controller invariant. */
  predicate Inv(s: Scene) {
    && (s.ctl.isHoldingItem <==> s.ctl.heldItem.Some?)
    && (s.ctl.canPlaceOnShelf ==> s.ctl.isHoldingItem && s.ctl.highlightedShelf.Some?)
    && (s.ctl.previewObject.Some? ==> s.ctl.isHoldingItem)
    && (forall id :: id in s.shelves && s.shelves[id].isHighlighted ==> s.ctl.highlightedShelf == Some(id))
    && (HeldLive(s) ==> s.items[s.ctl.heldItem.value].isBeingHeld)
  }

  /** Only the shelf the controller tracks may be highlighted, and it is. */
  predicate HighlightExact(s: Scene) {
    forall id :: id in s.shelves ==> (s.shelves[id].isHighlighted <==> s.ctl.highlightedShelf == Some(id))
  }

  lemma StartSatisfiesInv(items: map<ItemId, Items.Item>, shelves: map<ShelfId, Shelf.Shelf>)
    requires forall id :: id in shelves ==> !shelves[id].isHighlighted
    ensures Inv(Scene(Idle, items, shelves))
  {
  }

  function HighlightShelf(shelves: map<ShelfId, Shelf.Shelf>, id: ShelfId, on: bool): (r: map<ShelfId, Shelf.Shelf>)
    ensures r.Keys == shelves.Keys
    ensures id in r ==> r[id].isHighlighted == on
    ensures forall k :: k in r && k != id ==> r[k] == shelves[k]
  {
    if id in shelves then shelves[id := Shelf.Highlight(shelves[id], on)] else shelves
  }

  /** `HidePreview`: hides the preview object if there is one. */
  function HidePreview(c: Controller): (r: Controller)
    ensures r.previewObject.Some? <==> c.previewObject.Some?
    ensures r.previewObject.Some? ==> !r.previewObject.value.active
    ensures r.(previewObject := c.previewObject) == c
  {
    if c.previewObject.Some? then c.(previewObject := Some(c.previewObject.value.(active := false))) else c
  }

  /** `ShowPreview(position, valid)`: nothing unless a live item is held;
      otherwise creates the preview object on first use, then shows it at the
      position, turned by the current rotation, tinted by validity. */
  function ShowPreview(s: Scene, position: Vec3, valid: bool): (r: Scene)
    ensures !HeldLive(s) ==> r == s
    ensures HeldLive(s) ==>
      r.ctl.previewObject.Some? && r.ctl.previewObject.value.active
      && r.ctl.previewObject.value.position == position
      && r.ctl.previewObject.value.rotation == Yaw(s.ctl.currentRotation)
      && (r.ctl.previewObject.value.tint == ShelfPreview.ValidTint <==> valid)
    ensures r.ctl.(previewObject := s.ctl.previewObject) == s.ctl
    ensures r.items == s.items && r.shelves == s.shelves
  {
    if !HeldLive(s) then s
    else
      var base := if s.ctl.previewObject.Some? then s.ctl.previewObject.value
                  else ShelfPreview.PreviewObject("PreviewObject", false, Zero, Yaw(0.0), ShelfPreview.ValidTint, 1.0);
      var shown := base.(position := position, rotation := Yaw(s.ctl.currentRotation), active := true,
                         tint := if valid then ShelfPreview.ValidTint else ShelfPreview.InvalidTint);
      s.(ctl := s.ctl.(previewObject := Some(shown)))
  }

  /** `CheckShelfPlacement`: un-highlights the previously tracked shelf and
      clears `canPlaceOnShelf` first; then a hit shelf with space becomes the
      tracked, highlighted shelf, and placement becomes possible exactly when the
      shelf also reported a free slot, which becomes the target. */
  function CheckShelfPlacement(s: Scene, ray: ShelfRay): (r: Scene)
    ensures r.ctl.canPlaceOnShelf <==> ray.ShelfHit? && ray.shelf.Some? && ray.hasSpace && ray.hasSlot
    ensures r.ctl.highlightedShelf ==
      (if ray.ShelfHit? && ray.shelf.Some? && ray.hasSpace then ray.shelf else None)
    ensures ray.ShelfHit? && ray.shelf.Some? && ray.hasSpace ==> r.ctl.targetPlacementPosition == ray.slot
    ensures ray.ShelfHit? && ray.shelf.Some? && ray.hasSpace && !ray.hasSlot && HeldLive(s) ==>
      r.ctl.previewObject.Some? && r.ctl.previewObject.value.active
      && r.ctl.previewObject.value.tint == ShelfPreview.InvalidTint
      && r.ctl.previewObject.value.position == ray.point
    ensures r.ctl.canPlaceOnShelf && HeldLive(s) ==>
      r.ctl.previewObject.Some? && r.ctl.previewObject.value.active
      && r.ctl.previewObject.value.tint == ShelfPreview.ValidTint
      && r.ctl.previewObject.value.position == ray.slot
    ensures r.ctl.highlightedShelf.None? ==>
      (r.ctl.previewObject.Some? <==> s.ctl.previewObject.Some?)
    ensures r.ctl.highlightedShelf.None? && r.ctl.previewObject.Some? ==> !r.ctl.previewObject.value.active
    ensures r.ctl.previewObject.Some? ==> s.ctl.previewObject.Some? || HeldLive(s)
    ensures r.ctl.heldItem == s.ctl.heldItem && r.ctl.isHoldingItem == s.ctl.isHoldingItem
    ensures r.ctl.currentRotation == s.ctl.currentRotation
    ensures r.items == s.items && r.shelves.Keys == s.shelves.Keys
    ensures (forall id :: id in s.shelves && s.shelves[id].isHighlighted ==> s.ctl.highlightedShelf == Some(id))
      ==> HighlightExact(r)
  {
    var shelves1 := if s.ctl.highlightedShelf.Some? then HighlightShelf(s.shelves, s.ctl.highlightedShelf.value, false) else s.shelves;
    var c1 := s.ctl.(highlightedShelf := None, canPlaceOnShelf := false);
    var s1 := s.(ctl := c1, shelves := shelves1);
    match ray
    case NoShelfHit => s1.(ctl := HidePreview(c1))
    case ShelfHit(shelf, point, hasSpace, slot, hasSlot) =>
      if shelf.Some? && hasSpace then
        var s2 := s1.(ctl := c1.(highlightedShelf := shelf, targetPlacementPosition := slot),
                      shelves := HighlightShelf(shelves1, shelf.value, true));
        if hasSlot then ShowPreview(s2.(ctl := s2.ctl.(canPlaceOnShelf := true)), slot, true)
        else ShowPreview(s2, point, false)
      else s1.(ctl := HidePreview(c1))
  }

  /** `HandleHeldItem`: with a live held item, pins it to the hand and
      re-evaluates shelf placement; with a stale one, nothing. */
  function HandleHeldItem(s: Scene, f: Frame): (r: Scene)
    ensures !HeldLive(s) ==> r == s
    ensures HeldLive(s) ==> r.items == s.items[s.ctl.heldItem.value := s.items[s.ctl.heldItem.value].(position := f.handPosition)]
    ensures HeldLive(s) ==>
      (r.ctl.canPlaceOnShelf <==> f.shelfRay.ShelfHit? && f.shelfRay.shelf.Some? && f.shelfRay.hasSpace && f.shelfRay.hasSlot)
    ensures HeldLive(s) && r.ctl.canPlaceOnShelf ==>
      r.ctl.targetPlacementPosition == f.shelfRay.slot
      && r.ctl.previewObject.Some? && r.ctl.previewObject.value.active
      && r.ctl.previewObject.value.position == f.shelfRay.slot
    ensures HeldLive(s) ==> r.ctl.heldItem == s.ctl.heldItem && r.ctl.isHoldingItem == s.ctl.isHoldingItem
    ensures r.shelves.Keys == s.shelves.Keys
  {
    if !HeldLive(s) then s
    else
      var id := s.ctl.heldItem.value;
      var pinned := s.(items := s.items[id := s.items[id].(position := f.handPosition)]);
      CheckShelfPlacement(pinned, f.shelfRay)
  }

  /** `GrabItem(id)`: the controller now holds the item with a fresh rotation;
      an item on a shelf is first taken off it (its shelf is told), then it
      becomes held, parented to the hand at the hand's position. */
  function GrabItem(s: Scene, id: ItemId, hand: Vec3): (r: Step)
    requires id in s.items
    ensures r.scene.ctl == s.ctl.(heldItem := Some(id), isHoldingItem := true, currentRotation := 0.0)
    ensures r.scene.items.Keys == s.items.Keys
    ensures forall k :: k in s.items && k != id ==> r.scene.items[k] == s.items[k]
    ensures r.scene.items[id].isBeingHeld && !r.scene.items[id].isOnShelf && r.scene.items[id].currentShelf == None
    ensures r.scene.items[id].parent == Items.Hand && r.scene.items[id].position == hand
    ensures Frozen(r.scene.items[id].rb) && PassThrough(r.scene.items[id].col)
    ensures (r.scene.items[id].rb.Some? <==> s.items[id].rb.Some?) && (r.scene.items[id].col.Some? <==> s.items[id].col.Some?)
    ensures KeepsVelocity(r.scene.items[id].rb, s.items[id].rb)
    ensures Items.SameGoods(r.scene.items[id], s.items[id])
    ensures r.unshelvedFrom == (if s.items[id].isOnShelf then s.items[id].currentShelf else None)
    ensures r.scene.shelves == s.shelves && r.priceRequest == None
  {
    var it := s.items[id];
    var removal := if it.isOnShelf then Items.RemoveFromShelf(it) else Items.Removal(it, None);
    var grabbed := Items.OnGrabbed(removal.item).(parent := Items.Hand, position := hand);
    var ctl := s.ctl.(heldItem := Some(id), isHoldingItem := true, currentRotation := 0.0);
    Step(s.(ctl := ctl, items := s.items[id := grabbed]), removal.notified, None)
  }

  /** The item the grab ray offers, if it exists and is not already held. */
  function Grabbable(s: Scene, ray: ItemRay): Option<ItemId> {
    if ray.ItemHit? && ray.item.Some? && ray.item.value in s.items && !s.items[ray.item.value].isBeingHeld
    then ray.item else None
  }

  /** `TryGrabItem`: grabs the hit item only when it is an item not already held. */
  function TryGrabItem(s: Scene, f: Frame): (r: Step)
    ensures r.scene.ctl.heldItem != s.ctl.heldItem ==>
      f.grabRay.ItemHit? && f.grabRay.item.Some? && r.scene.ctl.heldItem == f.grabRay.item
      && f.grabRay.item.value in s.items && !s.items[f.grabRay.item.value].isBeingHeld
    ensures Grabbable(s, f.grabRay).None? ==> r == Step(s, None, None)
    ensures Grabbable(s, f.grabRay).Some? ==> r.scene.ctl.isHoldingItem && HeldLive(r.scene)
  {
    var target := Grabbable(s, f.grabRay);
    if target.Some? then GrabItem(s, target.value, f.handPosition) else Step(s, None, None)
  }

  /** Where `PlaceItem` drops an item off-shelf: 0.1 above the hit point, or 2
      units ahead of the camera when the ray hits nothing. */
  function DropPoint(f: Frame): (p: Vec3)
    ensures f.floorRay.FloorHit? ==> p == Vec3(f.floorRay.point.x, f.floorRay.point.y + 0.1, f.floorRay.point.z)
    ensures f.floorRay.NoFloorHit? ==> p == Add(f.cameraPosition, Scale(f.cameraForward, 2.0))
  {
    match f.floorRay
    case FloorHit(p) => Add(p, Scale(Up, 0.1))
    case NoFloorHit => Add(f.cameraPosition, Scale(f.cameraForward, 2.0))
  }

  /** The controller after letting go of its item: nothing held, nothing
      placeable, no preview; the tracked shelf and rotation stay. */
  function LetGo(c: Controller): (r: Controller)
    ensures r.heldItem == None && !r.isHoldingItem && !r.canPlaceOnShelf && r.previewObject == None
    ensures r.highlightedShelf == c.highlightedShelf && r.currentRotation == c.currentRotation
    ensures r.targetPlacementPosition == c.targetPlacementPosition
  {
    c.(previewObject := None, heldItem := None, isHoldingItem := false, canPlaceOnShelf := false)
  }

  /** `PlaceItem`: nothing with a stale held item. With a placeable tracked
      shelf the item is handed to the shelf at the target slot and the shelf is
      un-highlighted, without `OnReleased`; otherwise the item is dropped at
      `DropPoint` and released. Either way the controller lets go: placement is
      never refused. */
  function PlaceItem(s: Scene, f: Frame, st: Settings): (r: Scene)
    ensures !HeldLive(s) ==> r == s
    ensures HeldLive(s) ==> r.ctl == LetGo(s.ctl)
    ensures HeldLive(s) ==> r.items.Keys == s.items.Keys
    ensures HeldLive(s) ==> forall k :: k in s.items && k != s.ctl.heldItem.value ==> r.items[k] == s.items[k]
    ensures HeldLive(s) && s.ctl.canPlaceOnShelf && s.ctl.highlightedShelf.Some? ==>
      r.items[s.ctl.heldItem.value]
        == st.addItem(s.items[s.ctl.heldItem.value].(parent := Items.Root), s.ctl.highlightedShelf.value, s.ctl.targetPlacementPosition)
      && (s.ctl.highlightedShelf.value in r.shelves ==> !r.shelves[s.ctl.highlightedShelf.value].isHighlighted)
    ensures HeldLive(s) && !(s.ctl.canPlaceOnShelf && s.ctl.highlightedShelf.Some?) ==>
      var it := r.items[s.ctl.heldItem.value];
      !it.isBeingHeld && it.position == DropPoint(f) && it.parent == Items.Root
      && Dynamic(it.rb) && Solid(it.col) && Items.SameGoods(it, s.items[s.ctl.heldItem.value])
      && (it.rb.Some? <==> s.items[s.ctl.heldItem.value].rb.Some?)
      && (it.col.Some? <==> s.items[s.ctl.heldItem.value].col.Some?)
      && KeepsVelocity(it.rb, s.items[s.ctl.heldItem.value].rb)
      && r.shelves == s.shelves
    ensures r.shelves.Keys == s.shelves.Keys
    ensures forall k :: k in r.shelves && r.shelves[k].isHighlighted ==> k in s.shelves && s.shelves[k].isHighlighted
  {
    if !HeldLive(s) then s
    else
      var id := s.ctl.heldItem.value;
      var it := s.items[id].(parent := Items.Root);
      if s.ctl.canPlaceOnShelf && s.ctl.highlightedShelf.Some? then
        var shelf := s.ctl.highlightedShelf.value;
        Scene(LetGo(HidePreview(s.ctl)), s.items[id := st.addItem(it, shelf, s.ctl.targetPlacementPosition)],
              HighlightShelf(s.shelves, shelf, false))
      else
        Scene(LetGo(HidePreview(s.ctl)), s.items[id := Items.OnReleased(it.(position := DropPoint(f)))], s.shelves)
  }

  /** The launch velocity: camera forward times `throwForce` plus world up times `throwUpwardForce`. */
  function ThrowVelocity(f: Frame, st: Settings): (v: Vec3)
    ensures v == Vec3(f.cameraForward.x * st.throwForce,
                      f.cameraForward.y * st.throwForce + st.throwUpwardForce,
                      f.cameraForward.z * st.throwForce)
  {
    Add(Scale(f.cameraForward, st.throwForce), Scale(Up, st.throwUpwardForce))
  }

  /** `ThrowItem`: nothing with a stale held item; otherwise the item is released,
      launched with `ThrowVelocity` and a spin of at most 2, and the controller lets go. */
  function ThrowItem(s: Scene, f: Frame, st: Settings): (r: Scene)
    requires InUnitBall(f.spin)
    ensures !HeldLive(s) ==> r == s
    ensures HeldLive(s) ==> r.ctl == LetGo(s.ctl) && r.shelves == s.shelves
    ensures HeldLive(s) ==> r.items.Keys == s.items.Keys
    ensures HeldLive(s) ==> forall k :: k in s.items && k != s.ctl.heldItem.value ==> r.items[k] == s.items[k]
    ensures HeldLive(s) ==>
      var it := r.items[s.ctl.heldItem.value];
      !it.isBeingHeld && Dynamic(it.rb) && Solid(it.col) && it.parent == Items.Root
      && (it.rb.Some? <==> s.items[s.ctl.heldItem.value].rb.Some?)
      && (it.col.Some? <==> s.items[s.ctl.heldItem.value].col.Some?)
      && (it.rb.Some? ==> it.rb.value.linearVelocity == ThrowVelocity(f, st) && NormSq(it.rb.value.angularVelocity) <= 4.0)
      && it.isOnShelf == s.items[s.ctl.heldItem.value].isOnShelf
      && Items.SameGoods(it, s.items[s.ctl.heldItem.value])
  {
    if !HeldLive(s) then s
    else
      var id := s.ctl.heldItem.value;
      var released := Items.OnReleased(s.items[id].(parent := Items.Root));
      var launched := if released.rb.Some? then
        released.(rb := Some(released.rb.value.(linearVelocity := ThrowVelocity(f, st), angularVelocity := Scale(f.spin, 2.0))))
      else released;
      Scene(LetGo(HidePreview(s.ctl)), s.items[id := launched], s.shelves)
  }

  /** `OpenPriceMenu`: with a live held item, a request carrying that item and
      its freshly drawn suggested price; otherwise none. */
  function OpenPriceMenu(s: Scene, f: Frame, st: Settings): (req: Option<PriceRequest>)
    requires Pricing.VariationSample(st.priceSuggestionVariation, f.priceSample)
    ensures req.Some? <==> HeldLive(s)
    ensures req.Some? ==> req.value.item == s.ctl.heldItem.value
    ensures req.Some? && s.items[req.value.item].basePrice >= 0.0 ==>
      var b := s.items[req.value.item].basePrice;
      var v := Pricing.Abs(st.priceSuggestionVariation);
      b * (1.0 - v) <= req.value.suggested <= b * (1.0 + v)
  {
    if !HeldLive(s) then None
    else
      var id := s.ctl.heldItem.value;
      Some(PriceRequest(id, Items.GetSuggestedPrice(s.items[id], st.priceSuggestionVariation, f.priceSample)))
  }

  /** The grab key: `TryGrabItem`, only while nothing is held. */
  function GrabKey(s: Scene, f: Frame): (r: Step)
    ensures Inv(s) ==> Inv(r.scene)
    ensures r.scene.items.Keys == s.items.Keys && r.scene.shelves.Keys == s.shelves.Keys
    ensures r.priceRequest == None
    ensures r.unshelvedFrom.Some? ==> f.grabPressed && !s.ctl.isHoldingItem
    ensures !f.grabPressed ==> r == Step(s, None, None)
    ensures f.grabPressed && !s.ctl.isHoldingItem && Grabbable(s, f.grabRay).Some? ==>
      r.scene.ctl.isHoldingItem && r.scene.ctl.heldItem == Grabbable(s, f.grabRay) && HeldLive(r.scene)
      && r.scene.ctl.currentRotation == 0.0
    ensures s.ctl.isHoldingItem ==> r == Step(s, None, None)
  {
    if f.grabPressed && !s.ctl.isHoldingItem then TryGrabItem(s, f) else Step(s, None, None)
  }

  /** The place key: `PlaceItem`, only while holding. */
  function PlaceKey(s: Scene, f: Frame, st: Settings): (r: Scene)
    ensures Inv(s) ==> Inv(r)
    ensures r.items.Keys == s.items.Keys && r.shelves.Keys == s.shelves.Keys
    ensures !f.placePressed || !s.ctl.isHoldingItem || !HeldLive(s) ==> r == s
    ensures f.placePressed && s.ctl.isHoldingItem && HeldLive(s) ==>
      !r.ctl.isHoldingItem && r.ctl.currentRotation == s.ctl.currentRotation
  {
    if f.placePressed && s.ctl.isHoldingItem then PlaceItem(s, f, st) else s
  }

  /** The throw key: `ThrowItem`, only while holding. */
  function ThrowKey(s: Scene, f: Frame, st: Settings): (r: Scene)
    requires InUnitBall(f.spin)
    ensures Inv(s) ==> Inv(r)
    ensures r.items.Keys == s.items.Keys && r.shelves.Keys == s.shelves.Keys
    ensures !f.throwPressed || !s.ctl.isHoldingItem || !HeldLive(s) ==> r == s
    ensures f.throwPressed && s.ctl.isHoldingItem && HeldLive(s) ==>
      var id := s.ctl.heldItem.value;
      !r.ctl.isHoldingItem && r.ctl.heldItem == None && r.ctl.currentRotation == s.ctl.currentRotation
      && id in r.items && !r.items[id].isBeingHeld
      && (r.items[id].rb.Some? <==> s.items[id].rb.Some?)
      && (r.items[id].rb.Some? ==> r.items[id].rb.value.linearVelocity == ThrowVelocity(f, st))
  {
    if f.throwPressed && s.ctl.isHoldingItem then ThrowItem(s, f, st) else s
  }

  /** The rotate key: turns the held item's yaw while holding. */
  function RotateKey(s: Scene, f: Frame, st: Settings): (r: Scene)
    ensures Inv(s) ==> Inv(r)
    ensures r.items == s.items && r.shelves == s.shelves
    ensures r.ctl.heldItem == s.ctl.heldItem && r.ctl.isHoldingItem == s.ctl.isHoldingItem
    ensures !f.rotateHeld || !s.ctl.isHoldingItem ==> r == s
    ensures f.rotateHeld && s.ctl.isHoldingItem ==>
      r.ctl.currentRotation == s.ctl.currentRotation + st.objectRotationSpeed * f.deltaTime
  {
    if f.rotateHeld && s.ctl.isHoldingItem
    then s.(ctl := s.ctl.(currentRotation := s.ctl.currentRotation + st.objectRotationSpeed * f.deltaTime))
    else s
  }

  /** `HandleInput`: grab (only when not holding), place, throw, rotate and
      price (each only while holding), considered in that order against the state
      the previous action left. */
  function HandleInput(s: Scene, f: Frame, st: Settings): (r: Step)
    requires FrameOk(f, st)
    ensures Inv(s) ==> Inv(r.scene)
    ensures r.scene.items.Keys == s.items.Keys && r.scene.shelves.Keys == s.shelves.Keys
    ensures r.unshelvedFrom.Some? ==> f.grabPressed && !s.ctl.isHoldingItem
    ensures r.priceRequest.Some? ==>
      f.pricePressed && HeldLive(r.scene) && r.priceRequest.value.item == r.scene.ctl.heldItem.value
    ensures !(f.grabPressed || f.placePressed || f.throwPressed || f.rotateHeld || f.pricePressed) ==>
      r == Step(s, None, None)
    ensures f.grabPressed && !s.ctl.isHoldingItem && !f.placePressed && !f.throwPressed && Grabbable(s, f.grabRay).Some? ==>
      r.scene.ctl.isHoldingItem && r.scene.ctl.heldItem == Grabbable(s, f.grabRay)
    ensures s.ctl.isHoldingItem && HeldLive(s) && f.throwPressed && !f.placePressed ==>
      var id := s.ctl.heldItem.value;
      !r.scene.ctl.isHoldingItem && r.scene.ctl.heldItem == None && id in r.scene.items
      && !r.scene.items[id].isBeingHeld
      && (r.scene.items[id].rb.Some? ==> r.scene.items[id].rb.value.linearVelocity == ThrowVelocity(f, st))
  {
    var g := GrabKey(s, f);
    var s4 := RotateKey(ThrowKey(PlaceKey(g.scene, f, st), f, st), f, st);
    var req := if f.pricePressed && s4.ctl.isHoldingItem then OpenPriceMenu(s4, f, st) else None;
    Step(s4, g.unshelvedFrom, req)
  }

  /** `Update`: the held-item pass (only while holding), then the input pass. */
  function Update(s: Scene, f: Frame, st: Settings): (r: Step)
    requires FrameOk(f, st)
    ensures Inv(s) ==> Inv(r.scene)
    ensures r.scene.items.Keys == s.items.Keys && r.scene.shelves.Keys == s.shelves.Keys
    ensures r.unshelvedFrom.Some? ==> f.grabPressed && !s.ctl.isHoldingItem
    ensures r.priceRequest.Some? ==> f.pricePressed && HeldLive(r.scene)
    ensures !s.ctl.isHoldingItem && !(f.grabPressed || f.placePressed || f.throwPressed || f.rotateHeld || f.pricePressed) ==>
      r == Step(s, None, None)
    ensures s.ctl.isHoldingItem && HeldLive(s) && !f.placePressed && !f.throwPressed ==>
      var id := s.ctl.heldItem.value;
      r.scene.ctl.isHoldingItem && r.scene.ctl.heldItem == s.ctl.heldItem
      && r.scene.items[id] == s.items[id].(position := f.handPosition)
      && (r.scene.ctl.canPlaceOnShelf <==>
            f.shelfRay.ShelfHit? && f.shelfRay.shelf.Some? && f.shelfRay.hasSpace && f.shelfRay.hasSlot)
    ensures !s.ctl.isHoldingItem && f.grabPressed && !f.placePressed && !f.throwPressed && Grabbable(s, f.grabRay).Some? ==>
      r.scene.ctl.isHoldingItem && r.scene.ctl.heldItem == Grabbable(s, f.grabRay)
  {
    var s1 := if s.ctl.isHoldingItem then HandleHeldItem(s, f) else s;
    assert Inv(s) ==> Inv(s1) by {
      if Inv(s) && s.ctl.isHoldingItem {
        HandleHeldItemKeepsInv(s, f);
      }
    }
    HandleInput(s1, f, st)
  }

  /** A grab press while holding changes nothing. */
  lemma GrabIgnoredWhileHolding(s: Scene, f: Frame, st: Settings)
    requires FrameOk(f, st)
    requires s.ctl.isHoldingItem
    ensures HandleInput(s, f, st) == HandleInput(s, f.(grabPressed := false), st)
  {
  }

  /** Place and throw never both take effect in one frame: with place pressed,
      the throw key makes no difference. */
  lemma PlaceShadowsThrow(s: Scene, f: Frame, st: Settings)
    requires FrameOk(f, st)
    requires f.placePressed
    ensures HandleInput(s, f, st) == HandleInput(s, f.(throwPressed := false), st)
  {
    var placed := PlaceKey(GrabKey(s, f).scene, f, st);
    assert ThrowKey(placed, f, st) == placed;
  }

  /** With a live held item and place pressed, the frame ends holding nothing:
      placement is never refused, and no price request follows it. */
  lemma PlaceAlwaysLetsGo(s: Scene, f: Frame, st: Settings)
    requires FrameOk(f, st)
    requires s.ctl.isHoldingItem && HeldLive(s) && f.placePressed
    ensures var r := HandleInput(s, f, st);
      !r.scene.ctl.isHoldingItem && r.scene.ctl.heldItem == None && !r.scene.ctl.canPlaceOnShelf
      && r.scene.ctl.previewObject == None && r.priceRequest == None
  {
  }

  /** While a live item stays held (neither placed nor thrown), rotation grows
      exactly when the rotate key is held, and a price request follows exactly
      a price press. */
  lemma RotationOnlyWhileHolding(s: Scene, f: Frame, st: Settings)
    requires FrameOk(f, st)
    requires s.ctl.isHoldingItem && HeldLive(s)
    requires !f.placePressed && !f.throwPressed
    ensures HandleInput(s, f, st).scene.ctl.currentRotation ==
      s.ctl.currentRotation + (if f.rotateHeld then st.objectRotationSpeed * f.deltaTime else 0.0)
    ensures f.pricePressed <==> HandleInput(s, f, st).priceRequest.Some?
  {
  }

  /** Rotation needs a held item at the time the rotate key is read: without a
      grab, a controller holding nothing keeps its rotation; a frame that places
      or throws the live held item keeps it too, since the letting go comes first;
      and a fresh grab restarts it from 0. */
  lemma RotationNeedsHolding(s: Scene, f: Frame, st: Settings)
    requires FrameOk(f, st)
    ensures !s.ctl.isHoldingItem && !f.grabPressed ==>
      HandleInput(s, f, st).scene.ctl.currentRotation == s.ctl.currentRotation
    ensures s.ctl.isHoldingItem && HeldLive(s) && (f.placePressed || f.throwPressed) ==>
      HandleInput(s, f, st).scene.ctl.currentRotation == s.ctl.currentRotation
    ensures !s.ctl.isHoldingItem && f.grabPressed && !f.placePressed && !f.throwPressed && Grabbable(s, f.grabRay).Some? ==>
      HandleInput(s, f, st).scene.ctl.currentRotation ==
        (if f.rotateHeld then st.objectRotationSpeed * f.deltaTime else 0.0)
  {
  }

  /** The shelf branch of `PlaceItem` never calls `OnReleased`: if the shelf's
      `AddItem` leaves the held flag alone (as `PlaceOnShelf` does), the item
      stays marked as held after the controller let go of it, so `TryGrabItem`
      will refuse it from then on. */
  lemma ShelfPlacementKeepsHeldFlag(s: Scene, f: Frame, st: Settings)
    requires FrameOk(f, st)
    requires Inv(s) && HeldLive(s) && s.ctl.canPlaceOnShelf && f.placePressed
    requires forall it, shelf, p :: st.addItem(it, shelf, p).isBeingHeld == it.isBeingHeld
    ensures var id := s.ctl.heldItem.value;
      var r := HandleInput(s, f, st).scene;
      !r.ctl.isHoldingItem && id in r.items && r.items[id].isBeingHeld
      && Grabbable(r, ItemHit(Some(id))).None?
  {
  }

  /** A held reference whose item no longer exists (destroyed elsewhere) is
      never cleared: place, throw and price do nothing, grab is skipped because
      the controller still counts as holding, and only the rotation moves. */
  lemma UpdateWithStaleHold(s: Scene, f: Frame, st: Settings)
    requires FrameOk(f, st)
    requires s.ctl.isHoldingItem && s.ctl.heldItem.Some? && !HeldLive(s)
    ensures var r := Update(s, f, st);
      r.scene.ctl.isHoldingItem && r.scene.ctl.heldItem == s.ctl.heldItem
      && r.scene.items == s.items && r.scene.shelves == s.shelves
      && r.priceRequest == None && r.unshelvedFrom == None
  {
  }

  /** Over any run of frames the stale hold persists: the controller stays
      stuck holding nothing it can use, and no item or shelf changes. */
  lemma {:induction false} StaleHoldIsStuck(s: Scene, frames: seq<Frame>, st: Settings)
    requires forall i :: 0 <= i < |frames| ==> FrameOk(frames[i], st)
    requires s.ctl.isHoldingItem && s.ctl.heldItem.Some? && !HeldLive(s)
    ensures var r := Run(s, frames, st);
      r.ctl.isHoldingItem && r.ctl.heldItem == s.ctl.heldItem && r.items == s.items && r.shelves == s.shelves
    decreases |frames|
  {
    if |frames| > 0 {
      UpdateWithStaleHold(s, frames[0], st);
      StaleHoldIsStuck(Update(s, frames[0], st).scene, frames[1..], st);
    }
  }

  lemma HandleHeldItemKeepsInv(s: Scene, f: Frame)
    requires Inv(s)
    ensures Inv(HandleHeldItem(s, f))
    ensures HeldLive(s) ==> HighlightExact(HandleHeldItem(s, f))
  {
    if HeldLive(s) {
      var r := HandleHeldItem(s, f);
      assert r.ctl.canPlaceOnShelf ==> r.ctl.isHoldingItem;
    }
  }

  /** Runs a sequence of frames. */
  function Run(s: Scene, frames: seq<Frame>, st: Settings): Scene
    requires forall i :: 0 <= i < |frames| ==> FrameOk(frames[i], st)
    decreases |frames|
  {
    if |frames| == 0 then s else Run(Update(s, frames[0], st).scene, frames[1..], st)
  }

  /** Over any run of frames: holding exactly when an item is referenced, the
      preview and the placement flag only while holding, at most the tracked
      shelf highlighted, and a live held item marked as held. */
  lemma {:induction false} RunKeepsInv(s: Scene, frames: seq<Frame>, st: Settings)
    requires forall i :: 0 <= i < |frames| ==> FrameOk(frames[i], st)
    requires Inv(s)
    ensures Inv(Run(s, frames, st))
    decreases |frames|
  {
    if |frames| > 0 {
      RunKeepsInv(Update(s, frames[0], st).scene, frames[1..], st);
    }
  }
}

=== FILE: price_ui.dfy ===
/** The price dialog of `Assets/src/PriceUI.cs`. Opening it pauses the game
    (`Time.timeScale = 0`) and remembers the item; confirming with a positive
    typed price, or accepting the suggestion, writes the price, hangs a new price
    tag on the item and closes the dialog, which resumes the game. Text widgets
    and the input field's focus are presentation only; the typed text reaches
    the model already parsed (`None` when the field is missing or unparsable). */
module PriceUI {
  import opened Handles
  import opened Optional
  import Items = ShopItemOnShelf
  import Pricing

  /** Inspector references, reduced to whether they are set. `tagShowsPrice`
      says whether the tag prefab carries a `PriceTag` component. */
  datatype Setup = Setup(hasPanel: bool, hasTagPrefab: bool, tagShowsPrice: bool)

  /** A tag object hanging under an item, in creation order. One made from a
      prefab with a `PriceTag` component shows the price it was given; one made
      from a prefab without it is a bare object that nothing looks for again. */
  datatype Tag = Priced(price: real) | Plain

  datatype Menu = Menu(
    currentItem: Option<ItemId>,
    suggestedPrice: real,
    panelActive: bool,
    timeScale: real)

  /** The items in the scene and the price tags under each of them. */
  datatype World = World(items: map<ItemId, Items.Item>, tags: map<ItemId, seq<Tag>>)

  /** The dialog state after `Start`, with the game running at normal speed. */
  const Started: Menu := Menu(None, 0.0, false, 1.0)

  /** The game is paused exactly while an item is being priced, and a present
      panel is shown exactly then too. */
  predicate MenuInv(m: Menu, setup: Setup) {
    (m.currentItem.Some? <==> m.timeScale == 0.0)
    && (m.currentItem.None? ==> m.timeScale == 1.0)
    && (setup.hasPanel ==> (m.panelActive <==> m.currentItem.Some?))
    && (!setup.hasPanel ==> !m.panelActive)
  }

  /** Number of tags carrying a `PriceTag` component. */
  function PricedCount(ts: seq<Tag>): nat {
    if |ts| == 0 then 0 else (if ts[0].Priced? then 1 else 0) + PricedCount(ts[1..])
  }

  lemma {:induction false} PricedCountAppend(a: seq<Tag>, b: seq<Tag>)
    ensures PricedCount(a + b) == PricedCount(a) + PricedCount(b)
  {
    if |a| > 0 {
      assert (a + b)[1..] == a[1..] + b;
      PricedCountAppend(a[1..], b);
    } else {
      assert a + b == b;
    }
  }

  /** No item carries more than one tag showing a price. */
  predicate TagsInv(w: World) {
    forall id :: id in w.tags ==> PricedCount(w.tags[id]) <= 1
  }

  /** The tags under an item; an item never tagged has none. */
  function TagsOf(w: World, id: ItemId): seq<Tag> {
    if id in w.tags then w.tags[id] else []
  }

  lemma StartedSatisfiesInv(setup: Setup)
    ensures MenuInv(Started, setup)
  {
  }

  /** An item reference compares unequal to null only while the item still exists. */
  predicate Live(w: World, id: Option<ItemId>) {
    id.Some? && id.value in w.items
  }

  /** `OnShowPriceMenu(item, suggested)`: a null item is ignored; otherwise the
      dialog takes the item and the suggestion, shows its panel and pauses. */
  function OnShowPriceMenu(m: Menu, setup: Setup, w: World, item: Option<ItemId>, suggested: real): (r: Menu)
    ensures !Live(w, item) ==> r == m
    ensures Live(w, item) ==> r.currentItem == item && r.suggestedPrice == suggested && r.timeScale == 0.0
    ensures Live(w, item) ==> (r.panelActive <==> setup.hasPanel || m.panelActive)
    ensures MenuInv(m, setup) ==> MenuInv(r, setup)
  {
    if !Live(w, item) then m
    else m.(currentItem := item, suggestedPrice := suggested,
            panelActive := if setup.hasPanel then true else m.panelActive, timeScale := 0.0)
  }

  /** `CloseMenu`: hides a present panel, forgets the item, resumes the game. */
  function CloseMenu(m: Menu, setup: Setup): (r: Menu)
    ensures r.currentItem.None? && r.timeScale == 1.0
    ensures setup.hasPanel ==> !r.panelActive
    ensures !setup.hasPanel ==> r.panelActive == m.panelActive
    ensures r.suggestedPrice == m.suggestedPrice
    ensures MenuInv(m, setup) ==> MenuInv(r, setup)
  {
    m.(currentItem := None, panelActive := if setup.hasPanel then false else m.panelActive, timeScale := 1.0)
  }

  /** The tags left after destroying the first one with a `PriceTag`
      component, the one `GetComponentInChildren<PriceTag>` finds; bare tags are
      never found and stay. */
  function RemoveFirstPriced(ts: seq<Tag>): (r: seq<Tag>)
    ensures PricedCount(ts) == 0 ==> r == ts
    ensures PricedCount(ts) > 0 ==> |r| == |ts| - 1 && PricedCount(r) == PricedCount(ts) - 1
    decreases |ts|
  {
    if |ts| == 0 then []
    else if ts[0].Priced? then ts[1..]
    else
      assert ts == [ts[0]] + ts[1..];
      PricedCountAppend([ts[0]], RemoveFirstPriced(ts[1..]));
      [ts[0]] + RemoveFirstPriced(ts[1..])
  }

  /** The place of the first tag with a `PriceTag` component. */
  function FirstPriced(ts: seq<Tag>): (i: nat)
    requires PricedCount(ts) > 0
    ensures i < |ts| && ts[i].Priced?
    ensures forall j :: 0 <= j < i ==> ts[j].Plain?
    decreases |ts|
  {
    if ts[0].Priced? then 0 else 1 + FirstPriced(ts[1..])
  }

  /** What is removed is exactly one tag, the first priced one; the others keep
      their order. */
  lemma {:induction false} RemoveFirstPricedSplits(ts: seq<Tag>)
    requires PricedCount(ts) > 0
    ensures RemoveFirstPriced(ts) == ts[..FirstPriced(ts)] + ts[FirstPriced(ts) + 1..]
    decreases |ts|
  {
    if !ts[0].Priced? {
      RemoveFirstPricedSplits(ts[1..]);
      var i := FirstPriced(ts[1..]);
      assert ts[..i + 1] == [ts[0]] + ts[1..][..i];
      assert ts[i + 2..] == ts[1..][i + 1..];
    }
  }

  /** The tag a new prefab instance becomes. */
  function NewTag(setup: Setup, price: real): Tag {
    if setup.tagShowsPrice then Priced(price) else Plain
  }

  /** `CreatePriceTag(item, price)`: needs the prefab and a live item; destroys
      the first price-showing tag under the item, if any, and adds a new tag,
      which shows the price when the prefab has a `PriceTag` component. */
  function CreatePriceTag(w: World, setup: Setup, item: Option<ItemId>, price: real): (r: World)
    ensures r.items == w.items
    ensures !setup.hasTagPrefab || !Live(w, item) ==> r == w
    ensures setup.hasTagPrefab && Live(w, item) ==>
      var before := TagsOf(w, item.value);
      var after := TagsOf(r, item.value);
      item.value in r.tags
      && |after| == |before| + (if PricedCount(before) > 0 then 0 else 1)
      && |after| > 0 && after[|after| - 1] == NewTag(setup, price)
      && PricedCount(after) == PricedCount(before) - (if PricedCount(before) > 0 then 1 else 0)
                               + (if setup.tagShowsPrice then 1 else 0)
      && (PricedCount(before) == 0 ==> after == before + [NewTag(setup, price)])
    ensures forall id :: id in w.tags && Some(id) != item ==> id in r.tags && r.tags[id] == w.tags[id]
    ensures forall id :: id in r.tags ==> id in w.tags || Some(id) == item
    ensures TagsInv(w) ==> TagsInv(r)
  {
    if !setup.hasTagPrefab || !Live(w, item) then w
    else
      var id := item.value;
      var kept := RemoveFirstPriced(TagsOf(w, id));
      PricedCountAppend(kept, [NewTag(setup, price)]);
      w.(tags := w.tags[id := kept + [NewTag(setup, price)]])
  }

  /** `OnConfirmPrice` with the parsed contents of the input field: nothing
      without a live item; a positive price is written, tagged and the dialog
      closes; a missing, unparsable or non-positive price leaves everything as
      it was. */
  function OnConfirmPrice(m: Menu, setup: Setup, w: World, parsed: Option<real>): (r: (Menu, World))
    ensures !Live(w, m.currentItem) ==> r == (m, w)
    ensures Live(w, m.currentItem) && !(parsed.Some? && parsed.value > 0.0) ==> r == (m, w)
    ensures Live(w, m.currentItem) && parsed.Some? && parsed.value > 0.0 ==>
      var id := m.currentItem.value;
      id in r.1.items && r.1.items[id].assignedPrice == parsed.value
      && Pricing.HasPrice(r.1.items[id].assignedPrice)
      && r.0.currentItem.None? && r.0.timeScale == 1.0
    ensures forall id :: id in w.items ==>
      (id in r.1.items && (r.1.items[id] != w.items[id] ==> Some(id) == m.currentItem && parsed.Some? && parsed.value > 0.0))
    ensures r.1.items.Keys == w.items.Keys
    ensures MenuInv(m, setup) ==> MenuInv(r.0, setup)
    ensures TagsInv(w) ==> TagsInv(r.1)
  {
    if !Live(w, m.currentItem) then (m, w)
    else if parsed.Some? && parsed.value > 0.0 then
      var id := m.currentItem.value;
      var priced := w.(items := w.items[id := Items.SetPrice(w.items[id], parsed.value)]);
      (CloseMenu(m, setup), CreatePriceTag(priced, setup, m.currentItem, parsed.value))
    else (m, w)
  }

  /** `OnUseSuggestedPrice`: with a live item, writes the remembered suggestion
      with no positivity check, tags it and closes the dialog. */
  function OnUseSuggestedPrice(m: Menu, setup: Setup, w: World): (r: (Menu, World))
    ensures !Live(w, m.currentItem) ==> r == (m, w)
    ensures Live(w, m.currentItem) ==>
      var id := m.currentItem.value;
      id in r.1.items && r.1.items[id].assignedPrice == m.suggestedPrice
      && r.0.currentItem.None? && r.0.timeScale == 1.0
    ensures forall id :: id in w.items ==>
      (id in r.1.items && (r.1.items[id] != w.items[id] ==> Some(id) == m.currentItem))
    ensures r.1.items.Keys == w.items.Keys
    ensures MenuInv(m, setup) ==> MenuInv(r.0, setup)
    ensures TagsInv(w) ==> TagsInv(r.1)
  {
    if !Live(w, m.currentItem) then (m, w)
    else
      var id := m.currentItem.value;
      var priced := w.(items := w.items[id := Items.SetPrice(w.items[id], m.suggestedPrice)]);
      (CloseMenu(m, setup), CreatePriceTag(priced, setup, m.currentItem, m.suggestedPrice))
  }

  /** `OnCancel`: closes the dialog; no item is touched. */
  function OnCancel(m: Menu, setup: Setup, w: World): (r: (Menu, World))
    ensures r.1 == w
    ensures r.0.currentItem.None? && r.0.timeScale == 1.0
    ensures MenuInv(m, setup) ==> MenuInv(r.0, setup)
  {
    (CloseMenu(m, setup), w)
  }

  /** Pricing an item changes only its price: its goods and placement stay. */
  lemma ConfirmChangesOnlyPrice(m: Menu, setup: Setup, w: World, parsed: Option<real>)
    ensures var r := OnConfirmPrice(m, setup, w, parsed);
      forall id :: id in w.items ==>
        (id in r.1.items && r.1.items[id] == w.items[id].(assignedPrice := r.1.items[id].assignedPrice))
  {
  }

  /** With a prefab carrying `PriceTag`, confirming a price leaves exactly one
      price-showing tag on the item, the newest, showing the confirmed price;
      an item whose tags all show prices ends with that single tag. */
  lemma ConfirmLeavesOneTag(m: Menu, setup: Setup, w: World, p: real)
    requires TagsInv(w) && setup.hasTagPrefab && setup.tagShowsPrice && Live(w, m.currentItem) && p > 0.0
    ensures var r := OnConfirmPrice(m, setup, w, Some(p));
      var id := m.currentItem.value;
      var after := TagsOf(r.1, id);
      id in r.1.tags && PricedCount(after) == 1 && |after| > 0 && after[|after| - 1] == Priced(p)
      && (PricedCount(TagsOf(w, id)) == |TagsOf(w, id)| ==> after == [Priced(p)])
  {
  }

  /** With a prefab lacking `PriceTag`, nothing is ever found to remove: every
      confirmation adds one more bare tag and keeps all the earlier ones. */
  lemma PlainTagsPileUp(m: Menu, setup: Setup, w: World, p: real)
    requires setup.hasTagPrefab && !setup.tagShowsPrice && Live(w, m.currentItem) && p > 0.0
    requires PricedCount(TagsOf(w, m.currentItem.value)) == 0
    ensures var r := OnConfirmPrice(m, setup, w, Some(p));
      var id := m.currentItem.value;
      TagsOf(r.1, id) == TagsOf(w, id) + [Plain]
      && |TagsOf(r.1, id)| == |TagsOf(w, id)| + 1
      && PricedCount(TagsOf(r.1, id)) == 0
  {
  }

  /** The two ways of pricing disagree on validation: accepting a non-positive
      suggestion leaves the item without a valid price, while typing the same
      value is refused. */
  lemma SuggestionBypassesCheck(m: Menu, setup: Setup, w: World)
    requires Live(w, m.currentItem) && m.suggestedPrice <= 0.0
    ensures !Pricing.HasPrice(OnUseSuggestedPrice(m, setup, w).1.items[m.currentItem.value].assignedPrice)
    ensures OnConfirmPrice(m, setup, w, Some(m.suggestedPrice)) == (m, w)
  {
  }

  datatype Event =
    | Show(item: Option<ItemId>, suggested: real)
    | Confirm(parsed: Option<real>)
    | UseSuggested
    | Cancel

  function Handle(m: Menu, setup: Setup, w: World, e: Event): (Menu, World) {
    match e
    case Show(item, s) => (OnShowPriceMenu(m, setup, w, item, s), w)
    case Confirm(parsed) => OnConfirmPrice(m, setup, w, parsed)
    case UseSuggested => OnUseSuggestedPrice(m, setup, w)
    case Cancel => OnCancel(m, setup, w)
  }

  function HandleAll(m: Menu, setup: Setup, w: World, es: seq<Event>): (Menu, World)
    decreases |es|
  {
    if |es| == 0 then (m, w)
    else
      var r := Handle(m, setup, w, es[0]);
      HandleAll(r.0, setup, r.1, es[1..])
  }

  /** Whatever the player clicks, the game is paused exactly while the dialog
      holds an item, no item gains a second price-showing tag, and no item
      appears or vanishes. */
  lemma {:induction false} DialogInvariants(m: Menu, setup: Setup, w: World, es: seq<Event>)
    requires MenuInv(m, setup) && TagsInv(w)
    ensures var r := HandleAll(m, setup, w, es);
      MenuInv(r.0, setup) && TagsInv(r.1) && r.1.items.Keys == w.items.Keys
    decreases |es|
  {
    if |es| > 0 {
      var r := Handle(m, setup, w, es[0]);
      DialogInvariants(r.0, setup, r.1, es[1..]);
    }
  }
}

=== FILE: pricing.dfy ===
/** Price rules common to both item drafts. */
module Pricing {

  function Abs(x: real): real {
    if x < 0.0 then -x else x
  }

  /** A sample of `Random.Range(-variation, variation)`: the float overload of
      `Random.Range` returns a value between its bounds, both included. */
  predicate VariationSample(variation: real, v: real) {
    -Abs(variation) <= v <= Abs(variation)
  }

  /** `basePrice * (1 + v)` for a variation sample `v`. The result stays within
      `basePrice * (1 ± |variation|)`, on the side its sign dictates. */
  function SuggestedPrice(basePrice: real, variation: real, v: real): (p: real)
    requires VariationSample(variation, v)
    ensures basePrice >= 0.0 ==>
      basePrice * (1.0 - Abs(variation)) <= p <= basePrice * (1.0 + Abs(variation))
    ensures basePrice <= 0.0 ==>
      basePrice * (1.0 + Abs(variation)) <= p <= basePrice * (1.0 - Abs(variation))
    ensures v == 0.0 ==> p == basePrice
  {
    ScaleBetween(basePrice, -Abs(variation), v, Abs(variation));
    basePrice * (1.0 + v)
  }

  lemma ScaleBetween(b: real, lo: real, v: real, hi: real)
    requires lo <= v <= hi
    ensures b >= 0.0 ==> b * (1.0 + lo) <= b * (1.0 + v) <= b * (1.0 + hi)
    ensures b <= 0.0 ==> b * (1.0 + hi) <= b * (1.0 + v) <= b * (1.0 + lo)
  {
    assert b * (1.0 + v) - b * (1.0 + lo) == b * (v - lo);
    assert b * (1.0 + hi) - b * (1.0 + v) == b * (hi - v);
  }

  /** An item counts as priced exactly when its assigned price is positive. */
  predicate HasPrice(assignedPrice: real) {
    assignedPrice > 0.0
  }

  /** With the fixed ±10% of the simple item draft, a base price of 10 always
      suggests a price in [9, 11]. */
  lemma TenPercentOfTen(v: real)
    requires VariationSample(0.1, v)
    ensures 9.0 <= SuggestedPrice(10.0, 0.1, v) <= 11.0
  {
  }
}

=== FILE: shelf.dfy ===
/** The shelf component of `Assets/src/Shelf.cs`: a highlight switch and a
    per-frame count of the placed items found in a box over the shelf. The
    box overlap query is an input: the colliders it returned, in order. */
module Shelf {
  import opened Geometry
  import ShopItem

  datatype Shelf = Shelf(
    itemsOnShelf: int,
    isHighlighted: bool,
    hasCollider: bool,
    hasRenderer: bool,
    showsHighlightColor: bool)

  /** One collider returned by the overlap query: either something that is not
      an item, or an item of the simple draft with its current state. */
  datatype Overlap = OtherCollider | ItemCollider(item: ShopItem.Item)

  predicate IsPlacedItem(o: Overlap) {
    o.ItemCollider? && o.item.isPlaced
  }

  /** Axis-aligned box given by centre and half-extents, as Unity's `Bounds`. */
  datatype Box = Box(center: Vec3, extents: Vec3)

  function Bottom(b: Box): real { b.center.y - b.extents.y }
  function Top(b: Box): real { b.center.y + b.extents.y }

  /** `bounds.Expand(new Vector3(0, 0.2, 0))`: the collider box grown by 0.2 in
      height, half above and half below, with width and depth unchanged. */
  function SearchBox(b: Box): (r: Box)
    ensures r.center == b.center
    ensures r.extents.x == b.extents.x && r.extents.z == b.extents.z
    ensures Top(r) == Top(b) + 0.1 && Bottom(r) == Bottom(b) - 0.1
  {
    Box(b.center, Add(b.extents, Scale(Vec3(0.0, 0.2, 0.0), 0.5)))
  }

  /** `Highlight(on)`: records the flag and, when a renderer exists, shows the
      highlight colour exactly when it is on. */
  function Highlight(s: Shelf, on: bool): (r: Shelf)
    ensures r.isHighlighted == on
    ensures r.hasRenderer ==> r.showsHighlightColor == on
    ensures !r.hasRenderer ==> r.showsHighlightColor == s.showsHighlightColor
    ensures r.itemsOnShelf == s.itemsOnShelf && r.hasCollider == s.hasCollider && r.hasRenderer == s.hasRenderer
  {
    s.(isHighlighted := on, showsHighlightColor := if s.hasRenderer then on else s.showsHighlightColor)
  }

  /** Highlighting is idempotent, and only the last call matters. */
  lemma HighlightLastWins(s: Shelf, a: bool, b: bool)
    ensures Highlight(Highlight(s, a), b) == Highlight(s, b)
  {
  }

  /** Number of placed items among the overlap results. */
  function CountPlaced(hits: seq<Overlap>): (n: nat)
    ensures n <= |hits|
    ensures n == 0 <==> forall i :: 0 <= i < |hits| ==> !IsPlacedItem(hits[i])
  {
    if |hits| == 0 then 0
    else CountPlaced(hits[..|hits| - 1]) + (if IsPlacedItem(hits[|hits| - 1]) then 1 else 0)
  }

  /** The positions of the placed items among the overlap results. */
  function PlacedIndices(hits: seq<Overlap>): set<nat> {
    set i: nat | i < |hits| && IsPlacedItem(hits[i])
  }

  /** The count is the number of overlap positions holding a placed item. */
  lemma {:induction false} CountPlacedIsCardinality(hits: seq<Overlap>)
    ensures CountPlaced(hits) == |PlacedIndices(hits)|
  {
    if |hits| > 0 {
      var init := hits[..|hits| - 1];
      CountPlacedIsCardinality(init);
      var last := |hits| - 1;
      if IsPlacedItem(hits[last]) {
        assert PlacedIndices(hits) == PlacedIndices(init) + {last};
        assert last !in PlacedIndices(init);
      } else {
        assert PlacedIndices(hits) == PlacedIndices(init);
      }
    } else {
      assert PlacedIndices(hits) == {};
    }
  }

  /** A held or unplaced item, or a non-item collider, does not change the count. */
  lemma CountIgnoresUnplaced(hits: seq<Overlap>, o: Overlap)
    requires !IsPlacedItem(o)
    ensures CountPlaced(hits + [o]) == CountPlaced(hits)
  {
    assert (hits + [o])[..|hits|] == hits;
  }

  /** Counting splits over concatenation: two batches of overlaps count as their sum. */
  lemma {:induction false} CountPlacedAppend(a: seq<Overlap>, b: seq<Overlap>)
    ensures CountPlaced(a + b) == CountPlaced(a) + CountPlaced(b)
    decreases |b|
  {
    if |b| == 0 {
      assert a + b == a;
    } else {
      var b' := b[..|b| - 1];
      assert (a + b)[..|a + b| - 1] == a + b';
      CountPlacedAppend(a, b');
    }
  }

  /** `CountItemsOnShelf`: without a collider nothing happens; otherwise the
      stored count becomes the number of placed items among the overlaps. */
  function CountItemsOnShelf(s: Shelf, hits: seq<Overlap>): (r: Shelf)
    ensures !s.hasCollider ==> r == s
    ensures s.hasCollider ==> 0 <= r.itemsOnShelf <= |hits|
    ensures s.hasCollider ==> r.itemsOnShelf == |PlacedIndices(hits)|
    ensures r.(itemsOnShelf := s.itemsOnShelf) == s
  {
    if !s.hasCollider then s
    else
      CountPlacedIsCardinality(hits);
      s.(itemsOnShelf := CountPlaced(hits))
  }
}

=== FILE: shelf_preview.dfy ===
/** The ghost copy of an item shown where it would land (`Assets/src/ShelfPreview.cs`).
    Mesh copying and material set-up are presentation only; what remains is the
    preview object's existence, visibility, pose and valid/invalid colour. */
module ShelfPreview {
  import opened Geometry
  import opened Optional

  datatype Tint = ValidTint | InvalidTint

  /** The preview game object. */
  datatype PreviewObject = PreviewObject(
    name: string,
    active: bool,
    position: Vec3,
    rotation: Rotation,
    tint: Tint,
    scale: real)

  /** The component: the preview object, if any, and its own `isActive` flag. */
  datatype Preview = Preview(previewObject: Option<PreviewObject>, isActive: bool, previewScale: real)

  /** `isActive` reports exactly whether a preview object exists and is shown. */
  predicate Synced(p: Preview) {
    p.isActive <==> (p.previewObject.Some? && p.previewObject.value.active)
  }

  /** The state of a fresh component (field initialisers). */
  function Fresh(previewScale: real): (p: Preview)
    ensures Synced(p) && !p.isActive
  {
    Preview(None, false, previewScale)
  }

  /** `DestroyPreview`: drops an existing preview object and clears `isActive`;
      nothing without one. */
  function DestroyPreview(p: Preview): (r: Preview)
    ensures p.previewObject.None? ==> r == p
    ensures r.previewObject == None
    ensures p.previewObject.Some? ==> !r.isActive
    ensures Synced(p) ==> Synced(r) && !r.isActive
    ensures r.previewScale == p.previewScale
  {
    if p.previewObject.Some? then p.(previewObject := None, isActive := false) else p
  }

  /** `CreatePreview(source)`: nothing for a null source; otherwise replaces any
      previous preview by a new, hidden one named after the source and scaled by
      `previewScale`. */
  function CreatePreview(p: Preview, source: Option<string>): (r: Preview)
    ensures source.None? ==> r == p
    ensures source.Some? ==> r.previewObject.Some? && !r.previewObject.value.active && !r.isActive
    ensures source.Some? ==> r.previewObject.value.name == "ShelfPreview_" + source.value
    ensures source.Some? ==> r.previewObject.value.scale == p.previewScale
    ensures Synced(p) ==> Synced(r)
    ensures r.previewScale == p.previewScale
  {
    if source.None? then p
    else
      var cleared := DestroyPreview(p);
      var obj := PreviewObject("ShelfPreview_" + source.value, false, Zero, Yaw(0.0), ValidTint, p.previewScale);
      cleared.(previewObject := Some(obj), isActive := false)
  }

  /** `ShowPreview(position, rotation, valid)`: nothing without a preview object;
      otherwise moves it to the pose, shows it and tints it by validity. */
  function ShowPreview(p: Preview, position: Vec3, rotation: Rotation, valid: bool): (r: Preview)
    ensures p.previewObject.None? ==> r == p
    ensures p.previewObject.Some? ==> r.isActive && r.previewObject.Some?
    ensures p.previewObject.Some? ==>
      var o := r.previewObject.value;
      o.active && o.position == position && o.rotation == rotation
      && (o.tint == ValidTint <==> valid)
      && o.name == p.previewObject.value.name && o.scale == p.previewObject.value.scale
    ensures Synced(p) ==> Synced(r)
    ensures r.previewScale == p.previewScale
  {
    if p.previewObject.None? then p
    else
      var o := p.previewObject.value.(position := position, rotation := rotation, active := true,
                                      tint := if valid then ValidTint else InvalidTint);
      p.(previewObject := Some(o), isActive := true)
  }

  /** `HidePreview`: hides an existing preview object; nothing without one. */
  function HidePreview(p: Preview): (r: Preview)
    ensures p.previewObject.None? ==> r == p
    ensures p.previewObject.Some? ==> !r.isActive && r.previewObject.Some? && !r.previewObject.value.active
    ensures p.previewObject.Some? ==> r.previewObject.value == p.previewObject.value.(active := false)
    ensures Synced(p) ==> Synced(r)
    ensures r.previewScale == p.previewScale
  {
    if p.previewObject.None? then p
    else p.(previewObject := Some(p.previewObject.value.(active := false)), isActive := false)
  }

  /** `IsActive`: on a synchronised component, true exactly when a preview
      object exists and is shown. */
  function IsActive(p: Preview): (b: bool)
    ensures Synced(p) ==> (b <==> p.previewObject.Some? && p.previewObject.value.active)
  {
    p.isActive
  }

  /** Destroying and hiding are idempotent. */
  lemma DestroyAndHideIdempotent(p: Preview)
    ensures DestroyPreview(DestroyPreview(p)) == DestroyPreview(p)
    ensures HidePreview(HidePreview(p)) == HidePreview(p)
  {
  }

  datatype Op = Create(source: Option<string>) | Show(position: Vec3, rotation: Rotation, valid: bool) | Hide | Destroy

  function Apply(p: Preview, op: Op): Preview {
    match op
    case Create(s) => CreatePreview(p, s)
    case Show(pos, rot, v) => ShowPreview(p, pos, rot, v)
    case Hide => HidePreview(p)
    case Destroy => DestroyPreview(p)
  }

  function ApplyAll(p: Preview, ops: seq<Op>): Preview
    decreases |ops|
  {
    if |ops| == 0 then p else ApplyAll(Apply(p, ops[0]), ops[1..])
  }

  /** From a fresh component, whatever the calls, `isActive` implies a preview
      object exists (and is shown). */
  lemma {:induction false} ActiveImpliesObject(p: Preview, ops: seq<Op>)
    requires Synced(p)
    ensures Synced(ApplyAll(p, ops))
    ensures ApplyAll(p, ops).isActive ==> ApplyAll(p, ops).previewObject.Some?
    decreases |ops|
  {
    if |ops| > 0 {
      ActiveImpliesObject(Apply(p, ops[0]), ops[1..]);
    }
  }
}

=== FILE: shop_item.dfy ===
/** The simple item draft (`Assets/src/ShopItem.cs`): an item is held, placed,
    or neither, and every transition writes both flags together. */
module ShopItem {
  import opened Geometry
  import opened Optional
  import opened Physics
  import Pricing
  import Barcode
  import Decimal

  /** The fixed suggestion variation of this draft, ±10%. */
  const PriceVariation: real := 0.1

  datatype Item = Item(
    itemName: string,
    barcode: string,
    basePrice: real,
    assignedPrice: real,
    isBeingHeld: bool,
    isPlaced: bool,
    rb: Option<Rigidbody>,
    col: Option<Collider>)

  /** The item as the scene creates it: the field initialisers of the component. */
  function Fresh(name: string, barcode: string, basePrice: real, rb: Option<Rigidbody>, col: Option<Collider>): (it: Item)
    ensures !it.isBeingHeld && !it.isPlaced && !Pricing.HasPrice(it.assignedPrice)
  {
    Item(name, barcode, basePrice, 0.0, false, false, rb, col)
  }

  /** Never held and placed at once. */
  predicate Exclusive(it: Item) {
    !(it.isBeingHeld && it.isPlaced)
  }

  /** `Awake`: assigns a barcode when the item has none and switches the body to
      interpolated, continuous collision detection. Nothing else changes. */
  function Awake(it: Item, sample: int): (r: Item)
    requires Barcode.BarcodeSample(sample)
    ensures |r.barcode| > 0
    ensures |it.barcode| > 0 ==> r.barcode == it.barcode
    ensures |it.barcode| == 0 ==> r.barcode == Barcode.GenerateBarcode(sample)
    ensures |it.barcode| == 0 ==> |r.barcode| == 9 && Decimal.ParseNat(r.barcode) == sample
    ensures r.rb.Some? <==> it.rb.Some?
    ensures r.rb.Some? ==> r.rb.value.interpolate && r.rb.value.continuousCollision
    ensures r.(barcode := it.barcode, rb := it.rb) == it
  {
    var rb := if it.rb.Some? then Some(it.rb.value.(interpolate := true, continuousCollision := true)) else it.rb;
    it.(barcode := Barcode.InitBarcode(it.barcode, sample), rb := rb)
  }

  /** `OnGrab`: held, not placed, frozen and pass-through. */
  function OnGrab(it: Item): (r: Item)
    ensures r.isBeingHeld && !r.isPlaced && Exclusive(r)
    ensures Frozen(r.rb) && PassThrough(r.col)
    ensures r.rb.Some? <==> it.rb.Some?
    ensures r.col.Some? <==> it.col.Some?
    ensures r.assignedPrice == it.assignedPrice && r.barcode == it.barcode && r.basePrice == it.basePrice
  {
    it.(isBeingHeld := true, isPlaced := false, rb := Freeze(it.rb), col := SetTrigger(it.col, true))
  }

  /** `OnPlace`: placed, not held, at rest (both velocities zero), frozen and solid. */
  function OnPlace(it: Item): (r: Item)
    ensures !r.isBeingHeld && r.isPlaced && Exclusive(r)
    ensures Frozen(r.rb) && Solid(r.col)
    ensures r.rb.Some? ==> r.rb.value.linearVelocity == Zero && r.rb.value.angularVelocity == Zero
    ensures r.rb.Some? <==> it.rb.Some?
    ensures r.col.Some? <==> it.col.Some?
    ensures r.assignedPrice == it.assignedPrice && r.barcode == it.barcode && r.basePrice == it.basePrice
  {
    var rb := if it.rb.Some? then
      Some(it.rb.value.(linearVelocity := Zero, angularVelocity := Zero, isKinematic := true, useGravity := false))
    else it.rb;
    it.(isBeingHeld := false, isPlaced := true, rb := rb, col := SetTrigger(it.col, false))
  }

  /** `OnThrow(velocity)`: neither held nor placed, dynamic under gravity, solid,
      moving with the given velocity and a spin of at most 2 rad/s (twice a
      `Random.insideUnitSphere` sample). */
  function OnThrow(it: Item, velocity: Vec3, spin: Vec3): (r: Item)
    requires InUnitBall(spin)
    ensures !r.isBeingHeld && !r.isPlaced
    ensures Dynamic(r.rb) && Solid(r.col)
    ensures r.rb.Some? ==> r.rb.value.linearVelocity == velocity && NormSq(r.rb.value.angularVelocity) <= 4.0
    ensures r.rb.Some? <==> it.rb.Some?
    ensures r.col.Some? <==> it.col.Some?
    ensures r.assignedPrice == it.assignedPrice && r.barcode == it.barcode && r.basePrice == it.basePrice
  {
    var rb := if it.rb.Some? then
      Some(it.rb.value.(isKinematic := false, useGravity := true, linearVelocity := velocity, angularVelocity := Scale(spin, 2.0)))
    else it.rb;
    it.(isBeingHeld := false, isPlaced := false, rb := rb, col := SetTrigger(it.col, false))
  }

  /** `SetPrice(price)`: records the price as given, with no positivity check. */
  function SetPrice(it: Item, price: real): (r: Item)
    ensures r.assignedPrice == price
    ensures Pricing.HasPrice(r.assignedPrice) <==> price > 0.0
    ensures r.(assignedPrice := it.assignedPrice) == it
  {
    it.(assignedPrice := price)
  }

  /** `GetSuggestedPrice` for a `Random.Range(-0.1, 0.1)` sample `v`. */
  function GetSuggestedPrice(it: Item, v: real): (p: real)
    requires Pricing.VariationSample(PriceVariation, v)
    ensures it.basePrice >= 0.0 ==> 0.9 * it.basePrice <= p <= 1.1 * it.basePrice
    ensures it.basePrice <= 0.0 ==> 1.1 * it.basePrice <= p <= 0.9 * it.basePrice
  {
    Pricing.SuggestedPrice(it.basePrice, PriceVariation, v)
  }

  /** The operations a player can apply to an item of this draft. */
  datatype Op = Grab | Place | Throw(velocity: Vec3, spin: Vec3) | Price(price: real)

  predicate ValidOp(op: Op) {
    op.Throw? ==> InUnitBall(op.spin)
  }

  function Apply(it: Item, op: Op): Item
    requires ValidOp(op)
  {
    match op
    case Grab => OnGrab(it)
    case Place => OnPlace(it)
    case Throw(v, s) => OnThrow(it, v, s)
    case Price(p) => SetPrice(it, p)
  }

  function ApplyAll(it: Item, ops: seq<Op>): Item
    requires forall i :: 0 <= i < |ops| ==> ValidOp(ops[i])
    decreases |ops|
  {
    if |ops| == 0 then it else ApplyAll(Apply(it, ops[0]), ops[1..])
  }

  /** No sequence of operations ever leaves an exclusive item both held and placed. */
  lemma {:induction false} ExclusiveForever(it: Item, ops: seq<Op>)
    requires forall i :: 0 <= i < |ops| ==> ValidOp(ops[i])
    requires Exclusive(it)
    ensures Exclusive(ApplyAll(it, ops))
    decreases |ops|
  {
    if |ops| > 0 {
      ExclusiveForever(Apply(it, ops[0]), ops[1..]);
    }
  }

  /** Movement never touches the price: after any run of grabs, placements and
      throws the assigned price (and hence `HasPrice`) is what it was. */
  lemma {:induction false} PriceSurvivesMovement(it: Item, ops: seq<Op>)
    requires forall i :: 0 <= i < |ops| ==> ValidOp(ops[i]) && !ops[i].Price?
    ensures ApplyAll(it, ops).assignedPrice == it.assignedPrice
    ensures ApplyAll(it, ops).barcode == it.barcode
    decreases |ops|
  {
    if |ops| > 0 {
      PriceSurvivesMovement(Apply(it, ops[0]), ops[1..]);
    }
  }

  /** The last price set wins, whatever movement follows it. */
  lemma LastPriceWins(it: Item, price: real, ops: seq<Op>)
    requires forall i :: 0 <= i < |ops| ==> ValidOp(ops[i]) && !ops[i].Price?
    ensures ApplyAll(SetPrice(it, price), ops).assignedPrice == price
  {
    PriceSurvivesMovement(SetPrice(it, price), ops);
  }
}

=== FILE: shop_item_on_shelf.dfy ===
/** The shelf-aware item draft (the `ShopItem` class declared in
    `Assets/src/GlobalConfig.cs`), the one the interaction controller and the
    price dialog use. It keeps a held flag plus an on-shelf flag and a reference
    to the shelf it sits on. The shelf's own bookkeeping (`Shelf.RemoveItem`) is
    not part of this model: removing an item only reports which shelf was told. */
module ShopItemOnShelf {
  import opened Geometry
  import opened Optional
  import opened Physics
  import opened Handles
  import Pricing
  import Barcode
  import Decimal

  datatype Category = Food | Beverage | Cleaning | Personal | Other

  /** Where the item's transform hangs in the scene hierarchy. */
  datatype Parent = Root | Hand | ShelfParent(shelf: ShelfId) | SceneParent(node: nat)

  datatype Item = Item(
    itemName: string,
    barcode: string,
    basePrice: real,
    category: Category,
    assignedPrice: real,
    isOnShelf: bool,
    currentShelf: Option<ShelfId>,
    isBeingHeld: bool,
    rb: Option<Rigidbody>,
    col: Option<Collider>,
    position: Vec3,
    parent: Parent,
    originalParent: Parent)

  /** The on-shelf flag and the shelf reference agree. */
  predicate ShelfLinked(it: Item) {
    it.isOnShelf <==> it.currentShelf.Some?
  }

  /** The same item apart from its movement state: identity and price untouched. */
  predicate SameGoods(a: Item, b: Item) {
    a.itemName == b.itemName && a.barcode == b.barcode && a.basePrice == b.basePrice
    && a.category == b.category && a.assignedPrice == b.assignedPrice
  }

  /** `Awake`: remembers the parent the item started under and assigns a barcode
      when it has none. */
  function Awake(it: Item, sample: int): (r: Item)
    requires Barcode.BarcodeSample(sample)
    ensures |r.barcode| > 0
    ensures |it.barcode| > 0 ==> r.barcode == it.barcode
    ensures |it.barcode| == 0 ==> r.barcode == Barcode.GenerateBarcode(sample)
    ensures |it.barcode| == 0 ==> |r.barcode| == 9 && Decimal.ParseNat(r.barcode) == sample
    ensures r.originalParent == it.parent
    ensures r.(barcode := it.barcode, originalParent := it.originalParent) == it
  {
    it.(barcode := Barcode.InitBarcode(it.barcode, sample), originalParent := it.parent)
  }

  /** `GetSuggestedPrice` for a sample `v` of `Random.Range(-variation, variation)`,
      `variation` being the configured `priceSuggestionVariation`. */
  function GetSuggestedPrice(it: Item, variation: real, v: real): (p: real)
    requires Pricing.VariationSample(variation, v)
    ensures it.basePrice >= 0.0 ==>
      it.basePrice * (1.0 - Pricing.Abs(variation)) <= p <= it.basePrice * (1.0 + Pricing.Abs(variation))
    ensures it.basePrice <= 0.0 ==>
      it.basePrice * (1.0 + Pricing.Abs(variation)) <= p <= it.basePrice * (1.0 - Pricing.Abs(variation))
  {
    Pricing.SuggestedPrice(it.basePrice, variation, v)
  }

  /** `SetPrice(price)`: records any price, positive or not. */
  function SetPrice(it: Item, price: real): (r: Item)
    ensures Pricing.HasPrice(r.assignedPrice) <==> price > 0.0
    ensures r.assignedPrice == price
    ensures r.(assignedPrice := it.assignedPrice) == it
  {
    it.(assignedPrice := price)
  }

  /** `OnGrabbed`: held, off every shelf, frozen and pass-through. */
  function OnGrabbed(it: Item): (r: Item)
    ensures r.isBeingHeld && !r.isOnShelf && r.currentShelf == None
    ensures ShelfLinked(r)
    ensures Frozen(r.rb) && PassThrough(r.col)
    ensures r.rb.Some? <==> it.rb.Some?
    ensures r.col.Some? <==> it.col.Some?
    ensures KeepsVelocity(r.rb, it.rb)
    ensures SameGoods(r, it) && r.position == it.position && r.parent == it.parent
  {
    it.(isBeingHeld := true, isOnShelf := false, currentShelf := None,
        rb := Freeze(it.rb), col := SetTrigger(it.col, true))
  }

  /** `OnReleased`: no longer held, dynamic and solid again; the shelf
      association is left exactly as it was. */
  function OnReleased(it: Item): (r: Item)
    ensures !r.isBeingHeld
    ensures Dynamic(r.rb) && Solid(r.col)
    ensures r.rb.Some? <==> it.rb.Some?
    ensures r.col.Some? <==> it.col.Some?
    ensures KeepsVelocity(r.rb, it.rb)
    ensures r.isOnShelf == it.isOnShelf && r.currentShelf == it.currentShelf
    ensures ShelfLinked(it) ==> ShelfLinked(r)
    ensures SameGoods(r, it) && r.position == it.position && r.parent == it.parent
  {
    it.(isBeingHeld := false, rb := Unfreeze(it.rb), col := SetTrigger(it.col, false))
  }

  /** `PlaceOnShelf(shelf, position)`: on that shelf, at that position, parented
      to it and frozen. The held flag is not touched. */
  function PlaceOnShelf(it: Item, shelf: ShelfId, position: Vec3): (r: Item)
    ensures r.isOnShelf && r.currentShelf == Some(shelf) && ShelfLinked(r)
    ensures r.position == position && r.parent == ShelfParent(shelf)
    ensures Frozen(r.rb)
    ensures r.rb.Some? <==> it.rb.Some?
    ensures KeepsVelocity(r.rb, it.rb)
    ensures r.isBeingHeld == it.isBeingHeld && r.col == it.col
    ensures SameGoods(r, it)
  {
    it.(isOnShelf := true, currentShelf := Some(shelf), position := position,
        parent := ShelfParent(shelf), rb := Freeze(it.rb))
  }

  /** Result of `RemoveFromShelf`: the item afterwards and the shelf that was
      asked to forget it, if the item referenced one. */
  datatype Removal = Removal(item: Item, notified: Option<ShelfId>)

  /** `RemoveFromShelf`: tells the referenced shelf (only when there is one),
      then always clears both shelf fields and returns the item to its original parent. */
  function RemoveFromShelf(it: Item): (r: Removal)
    ensures r.notified == it.currentShelf
    ensures !r.item.isOnShelf && r.item.currentShelf == None && ShelfLinked(r.item)
    ensures r.item.parent == it.originalParent
    ensures r.item.isBeingHeld == it.isBeingHeld && r.item.position == it.position
    ensures r.item.rb == it.rb && r.item.col == it.col
    ensures SameGoods(r.item, it)
  {
    Removal(it.(isOnShelf := false, currentShelf := None, parent := it.originalParent), it.currentShelf)
  }

  /** Removing twice is removing once, and the second removal tells no shelf. */
  lemma RemoveFromShelfIdempotent(it: Item)
    ensures RemoveFromShelf(RemoveFromShelf(it).item).item == RemoveFromShelf(it).item
    ensures RemoveFromShelf(RemoveFromShelf(it).item).notified == None
  {
  }

  /** The transitions the controller and the price dialog apply to an item. */
  datatype Op = Grabbed | Released | Shelve(shelf: ShelfId, at: Vec3) | Unshelve | Price(price: real)

  function Apply(it: Item, op: Op): Item {
    match op
    case Grabbed => OnGrabbed(it)
    case Released => OnReleased(it)
    case Shelve(s, p) => PlaceOnShelf(it, s, p)
    case Unshelve => RemoveFromShelf(it).item
    case Price(p) => SetPrice(it, p)
  }

  function ApplyAll(it: Item, ops: seq<Op>): Item
    decreases |ops|
  {
    if |ops| == 0 then it else ApplyAll(Apply(it, ops[0]), ops[1..])
  }

  /** Every transition keeps the on-shelf flag and the shelf reference in step. */
  lemma {:induction false} ShelfLinkedForever(it: Item, ops: seq<Op>)
    requires ShelfLinked(it)
    ensures ShelfLinked(ApplyAll(it, ops))
    decreases |ops|
  {
    if |ops| > 0 {
      ShelfLinkedForever(Apply(it, ops[0]), ops[1..]);
    }
  }

  /** Movement never changes identity or price: only `SetPrice` does. */
  lemma {:induction false} GoodsSurviveMovement(it: Item, ops: seq<Op>)
    requires forall i :: 0 <= i < |ops| ==> !ops[i].Price?
    ensures SameGoods(ApplyAll(it, ops), it)
    decreases |ops|
  {
    if |ops| > 0 {
      GoodsSurviveMovement(Apply(it, ops[0]), ops[1..]);
    }
  }

  /** This draft does not keep held and on-shelf apart: placing a grabbed item on
      a shelf without releasing it first leaves it both held and on the shelf. */
  lemma ShelvedWhileHeld(it: Item, shelf: ShelfId, at: Vec3)
    ensures PlaceOnShelf(OnGrabbed(it), shelf, at).isBeingHeld
    ensures PlaceOnShelf(OnGrabbed(it), shelf, at).isOnShelf
  {
  }
}

=== FILE: shop_manager.dfy ===
/** The shop door of `Assets/src/ShopManager.cs`: a guarded open/close state
    machine driven by the E key near the door, per-day "already opened" flags,
    and a notification panel with a countdown. Notification texts become the
    `Notice` values; the panel and text widgets are reduced to whether they exist. */
module ShopManager {
  import opened Geometry
  import opened Optional
  import opened GameConfig

  datatype Notice =
    | Opened | ClosedForLunch | Reopened | ClosedForDay
    | TimeToOpen | TimeToCloseForLunch | TimeToReopen | TimeToCloseForDay

  /** Inspector settings. */
  datatype Setup = Setup(
    doorInteractionDistance: real,
    notificationDuration: real,
    hasPanel: bool,
    hasText: bool)

  datatype Shop = Shop(
    canOpenShop: bool,
    shopOpenedMorning: bool,
    shopOpenedAfternoon: bool,
    notificationTimer: real,
    showingNotification: bool,
    panelActive: bool,
    message: Option<Notice>)

  /** The component's state after `Start`: every flag cleared, panel hidden. */
  const Initial: Shop := Shop(false, false, false, 0.0, false, false, None)

  /** `CheckPlayerNearDoor`: with both the player and the door present, the door
      is usable exactly when their distance is at most `doorInteractionDistance`.
      The distance is the square root of `DistSq`; comparing squares is exact
      because a distance is never negative. */
  function CheckPlayerNearDoor(shop: Shop, setup: Setup, player: Option<Vec3>, door: Option<Vec3>): (r: Shop)
    ensures player.None? || door.None? ==> r == shop
    ensures player.Some? && door.Some? ==>
      forall dist: real :: dist >= 0.0 && Sq(dist) == DistSq(player.value, door.value) ==>
        (r.canOpenShop <==> dist <= setup.doorInteractionDistance)
    ensures r.(canOpenShop := shop.canOpenShop) == shop
  {
    if player.None? || door.None? then shop
    else
      var d := setup.doorInteractionDistance;
      var near := d >= 0.0 && DistSq(player.value, door.value) <= d * d;
      assert forall dist: real :: dist >= 0.0 && Sq(dist) == DistSq(player.value, door.value) ==>
        (near <==> dist <= d) by {
        forall dist: real | dist >= 0.0 && Sq(dist) == DistSq(player.value, door.value)
          ensures near <==> dist <= d
        {
          SquareCompare(dist, d);
        }
      }
      shop.(canOpenShop := near)
  }

  /** The square of a real, named so that quantifiers over distances have a trigger. */
  function Sq(x: real): real {
    x * x
  }

  lemma SquareCompare(x: real, d: real)
    requires x >= 0.0
    ensures (d >= 0.0 && Sq(x) <= d * d) <==> x <= d
  {
    if d >= 0.0 && x > d {
      calc {
        d * d;
      <= { MulLe(d, d, x); }
        d * x;
      < { MulLt(x, d, x); }
        x * x;
      ==
        Sq(x);
      }
    }
    if x <= d {
      calc {
        Sq(x);
      ==
        x * x;
      <= { MulLe(x, x, d); }
        x * d;
      <= { MulLe(d, x, d); }
        d * d;
      }
    }
  }

  lemma MulLe(c: real, a: real, b: real)
    requires c >= 0.0 && a <= b
    ensures c * a <= c * b
  {
  }

  lemma MulLt(c: real, a: real, b: real)
    requires c > 0.0 && a < b
    ensures a * c < b * c
  {
  }

  /** `ShowNotification(message)`: arms the countdown only when both the panel
      and the text widget exist; otherwise nothing happens. */
  function ShowNotification(shop: Shop, setup: Setup, msg: Notice): (r: Shop)
    ensures !(setup.hasPanel && setup.hasText) ==> r == shop
    ensures setup.hasPanel && setup.hasText ==>
      r.showingNotification && r.panelActive && r.message == Some(msg)
      && r.notificationTimer == setup.notificationDuration
    ensures r.canOpenShop == shop.canOpenShop && r.shopOpenedMorning == shop.shopOpenedMorning
      && r.shopOpenedAfternoon == shop.shopOpenedAfternoon
  {
    if setup.hasPanel && setup.hasText then
      shop.(message := Some(msg), panelActive := true, showingNotification := true,
            notificationTimer := setup.notificationDuration)
    else shop
  }

  /** `UpdateNotification(deltaTime)`: while a notification shows, counts down
      and, once the timer is at or below zero, hides the panel and stops. */
  function UpdateNotification(shop: Shop, setup: Setup, deltaTime: real): (r: Shop)
    ensures !shop.showingNotification ==> r == shop
    ensures shop.showingNotification ==> r.notificationTimer == shop.notificationTimer - deltaTime
    ensures shop.showingNotification ==> (r.showingNotification <==> r.notificationTimer > 0.0)
    ensures shop.showingNotification && !r.showingNotification && setup.hasPanel ==> !r.panelActive
    ensures r.canOpenShop == shop.canOpenShop && r.shopOpenedMorning == shop.shopOpenedMorning
      && r.shopOpenedAfternoon == shop.shopOpenedAfternoon && r.message == shop.message
  {
    if !shop.showingNotification then shop
    else
      var timer := shop.notificationTimer - deltaTime;
      if timer <= 0.0 then
        shop.(notificationTimer := timer, panelActive := if setup.hasPanel then false else shop.panelActive,
              showingNotification := false)
      else shop.(notificationTimer := timer)
  }

  /** A freshly shown notification disappears after one update whose elapsed
      time reaches the configured duration, and not before. */
  lemma NotificationExpires(shop: Shop, setup: Setup, msg: Notice, deltaTime: real)
    requires setup.hasPanel && setup.hasText
    ensures var r := UpdateNotification(ShowNotification(shop, setup, msg), setup, deltaTime);
      !r.showingNotification <==> deltaTime >= setup.notificationDuration
  {
  }

  /** `OpenShop`: only the shared open flag changes. */
  function OpenShop(cfg: Shared): (r: Shared)
    ensures r.isShopOpen
    ensures r.(isShopOpen := cfg.isShopOpen) == cfg
  {
    cfg.(isShopOpen := true)
  }

  /** `CloseShop`: only the shared open flag changes. */
  function CloseShop(cfg: Shared): (r: Shared)
    ensures !r.isShopOpen
    ensures r.(isShopOpen := cfg.isShopOpen) == cfg
  {
    cfg.(isShopOpen := false)
  }

  /** Closing undoes opening and opening undoes closing. */
  lemma OpenCloseInverse(cfg: Shared)
    ensures !cfg.isShopOpen ==> CloseShop(OpenShop(cfg)) == cfg
    ensures cfg.isShopOpen ==> OpenShop(CloseShop(cfg)) == cfg
  {
  }

  /** The four door transitions. */
  datatype Transition = MorningOpen | LunchClose | AfternoonOpen | EveningClose

  /** Which branch of the else-if chain a press selects, if any. */
  function Chosen(shop: Shop, cfg: Shared, sched: Schedule): Option<Transition> {
    var t := TimeOfDay(cfg);
    if !cfg.isShopOpen && sched.morningOpenTime <= t < sched.lunchCloseTime && !shop.shopOpenedMorning then Some(MorningOpen)
    else if cfg.isShopOpen && t >= sched.lunchCloseTime && shop.shopOpenedMorning then Some(LunchClose)
    else if !cfg.isShopOpen && sched.afternoonOpenTime <= t < sched.eveningCloseTime && !shop.shopOpenedAfternoon then Some(AfternoonOpen)
    else if cfg.isShopOpen && t >= sched.eveningCloseTime then Some(EveningClose)
    else None
  }

  /** The notice each transition shows. */
  function NoticeFor(t: Transition): Notice {
    match t
    case MorningOpen => Opened
    case LunchClose => ClosedForLunch
    case AfternoonOpen => Reopened
    case EveningClose => ClosedForDay
  }

  /** Result of one `HandleShopInteraction`: new states and the transition taken. */
  datatype Interaction = Interaction(shop: Shop, cfg: Shared, taken: Option<Transition>)

  /** `HandleShopInteraction`: nothing unless the door is usable and the player
      exists; otherwise an E press takes the first applicable transition. Opening
      sets `isShopOpen` and that half-day's flag; closing clears `isShopOpen`
      only. Each transition shows its notice. */
  function HandleShopInteraction(shop: Shop, setup: Setup, cfg: Shared, sched: Schedule,
                                 playerPresent: bool, ePressed: bool): (r: Interaction)
    ensures !shop.canOpenShop || !playerPresent || !ePressed ==> r == Interaction(shop, cfg, None)
    ensures r.taken.Some? ==> shop.canOpenShop && playerPresent && ePressed
    ensures r.taken.Some? ==> r.taken == Chosen(shop, cfg, sched)
    ensures shop.canOpenShop && playerPresent && ePressed ==> r.taken == Chosen(shop, cfg, sched)
    ensures r.taken.Some? ==> (r.cfg.isShopOpen <==> r.taken.value in {MorningOpen, AfternoonOpen})
    ensures r.taken.Some? ==> (cfg.isShopOpen <==> r.taken.value in {LunchClose, EveningClose})
    ensures r.taken.None? ==> r.cfg == cfg && r.shop == shop
    ensures r.cfg == cfg.(isShopOpen := r.cfg.isShopOpen)
    ensures r.shop.shopOpenedMorning == (shop.shopOpenedMorning || r.taken == Some(MorningOpen))
    ensures r.shop.shopOpenedAfternoon == (shop.shopOpenedAfternoon || r.taken == Some(AfternoonOpen))
    ensures r.shop.canOpenShop == shop.canOpenShop
    ensures r.taken.Some? && setup.hasPanel && setup.hasText ==>
      r.shop.showingNotification && r.shop.panelActive && r.shop.message == Some(NoticeFor(r.taken.value))
      && r.shop.notificationTimer == setup.notificationDuration
  {
    if !shop.canOpenShop || !playerPresent || !ePressed then Interaction(shop, cfg, None)
    else
      match Chosen(shop, cfg, sched)
      case None => Interaction(shop, cfg, None)
      case Some(MorningOpen) =>
        Interaction(ShowNotification(shop.(shopOpenedMorning := true), setup, Opened), OpenShop(cfg), Some(MorningOpen))
      case Some(LunchClose) =>
        Interaction(ShowNotification(shop, setup, ClosedForLunch), CloseShop(cfg), Some(LunchClose))
      case Some(AfternoonOpen) =>
        Interaction(ShowNotification(shop.(shopOpenedAfternoon := true), setup, Reopened), OpenShop(cfg), Some(AfternoonOpen))
      case Some(EveningClose) =>
        Interaction(ShowNotification(shop, setup, ClosedForDay), CloseShop(cfg), Some(EveningClose))
  }

  /** The guards of the four transitions, as the else-if chain states them. */
  lemma TransitionGuards(shop: Shop, cfg: Shared, sched: Schedule)
    ensures Chosen(shop, cfg, sched) == Some(MorningOpen) <==>
      !cfg.isShopOpen && sched.morningOpenTime <= TimeOfDay(cfg) < sched.lunchCloseTime && !shop.shopOpenedMorning
    ensures Chosen(shop, cfg, sched) == Some(LunchClose) ==>
      cfg.isShopOpen && TimeOfDay(cfg) >= sched.lunchCloseTime && shop.shopOpenedMorning
    ensures Chosen(shop, cfg, sched) == Some(AfternoonOpen) ==>
      !cfg.isShopOpen && sched.afternoonOpenTime <= TimeOfDay(cfg) < sched.eveningCloseTime && !shop.shopOpenedAfternoon
    ensures Chosen(shop, cfg, sched) == Some(EveningClose) ==>
      cfg.isShopOpen && TimeOfDay(cfg) >= sched.eveningCloseTime
    ensures cfg.isShopOpen && TimeOfDay(cfg) >= sched.eveningCloseTime ==> Chosen(shop, cfg, sched).Some?
  {
  }

  /** The morning flag stays set all day, so once the shop opened in the
      morning every later close of an open shop past lunch-close time is the
      lunch close, even in the evening: the evening close is then out of reach. */
  lemma MorningFlagShadowsEveningClose(shop: Shop, cfg: Shared, sched: Schedule)
    requires shop.shopOpenedMorning && cfg.isShopOpen && TimeOfDay(cfg) >= sched.lunchCloseTime
    ensures Chosen(shop, cfg, sched) == Some(LunchClose)
  {
  }

  /** An afternoon reopening is undone by the next usable press, which closes
      the shop "for lunch" again rather than doing nothing or closing for the day. */
  lemma AfternoonReopeningClosedForLunch(shop: Shop, setup: Setup, cfg: Shared, sched: Schedule)
    requires shop.canOpenShop && shop.shopOpenedMorning
    requires Chosen(shop, cfg, sched) == Some(AfternoonOpen) && TimeOfDay(cfg) >= sched.lunchCloseTime
    ensures var first := HandleShopInteraction(shop, setup, cfg, sched, true, true);
      var second := HandleShopInteraction(first.shop, setup, first.cfg, sched, true, true);
      first.taken == Some(AfternoonOpen) && second.taken == Some(LunchClose) && !second.cfg.isShopOpen
  {
    var first := HandleShopInteraction(shop, setup, cfg, sched, true, true);
    assert TimeOfDay(first.cfg) == TimeOfDay(cfg);
    MorningFlagShadowsEveningClose(first.shop, first.cfg, sched);
  }

  /** `ResetDailyShopFlags` (run on the clock's new-day broadcast). */
  function ResetDailyShopFlags(shop: Shop): (r: Shop)
    ensures !r.shopOpenedMorning && !r.shopOpenedAfternoon
    ensures r.(shopOpenedMorning := shop.shopOpenedMorning, shopOpenedAfternoon := shop.shopOpenedAfternoon) == shop
  {
    shop.(shopOpenedMorning := false, shopOpenedAfternoon := false)
  }

  /** After the new-day reset a usable press reopens the shop: the morning
      opening inside the morning window, otherwise the afternoon opening inside
      the afternoon window, whatever was opened the day before. */
  lemma ResetAllowsReopening(shop: Shop, setup: Setup, cfg: Shared, sched: Schedule)
    requires shop.canOpenShop && !cfg.isShopOpen
    ensures var t := TimeOfDay(cfg);
      var i := HandleShopInteraction(ResetDailyShopFlags(shop), setup, cfg, sched, true, true);
      (sched.morningOpenTime <= t < sched.lunchCloseTime ==> i.taken == Some(MorningOpen) && i.cfg.isShopOpen)
      && (!(sched.morningOpenTime <= t < sched.lunchCloseTime) && sched.afternoonOpenTime <= t < sched.eveningCloseTime
          ==> i.taken == Some(AfternoonOpen) && i.cfg.isShopOpen)
  {
  }

  /** The clock's reminders: a notice only when the shop is in the state the
      reminder asks the player to change. */
  function OnMorningOpenTime(shop: Shop, setup: Setup, cfg: Shared): (r: Shop)
    ensures cfg.isShopOpen ==> r == shop
    ensures !cfg.isShopOpen ==> r == ShowNotification(shop, setup, TimeToOpen)
  {
    if !cfg.isShopOpen then ShowNotification(shop, setup, TimeToOpen) else shop
  }

  function OnLunchClose(shop: Shop, setup: Setup, cfg: Shared): (r: Shop)
    ensures !cfg.isShopOpen ==> r == shop
    ensures cfg.isShopOpen ==> r == ShowNotification(shop, setup, TimeToCloseForLunch)
  {
    if cfg.isShopOpen then ShowNotification(shop, setup, TimeToCloseForLunch) else shop
  }

  function OnAfternoonOpenTime(shop: Shop, setup: Setup, cfg: Shared): (r: Shop)
    ensures cfg.isShopOpen ==> r == shop
    ensures !cfg.isShopOpen ==> r == ShowNotification(shop, setup, TimeToReopen)
  {
    if !cfg.isShopOpen then ShowNotification(shop, setup, TimeToReopen) else shop
  }

  function OnEveningClose(shop: Shop, setup: Setup, cfg: Shared): (r: Shop)
    ensures !cfg.isShopOpen ==> r == shop
    ensures cfg.isShopOpen ==> r == ShowNotification(shop, setup, TimeToCloseForDay)
  {
    if cfg.isShopOpen then ShowNotification(shop, setup, TimeToCloseForDay) else shop
  }

  /** One frame of the shop (`Update`) with the door inputs of that frame. */
  datatype Press = Press(player: Option<Vec3>, door: Option<Vec3>, ePressed: bool, deltaTime: real, cfg: Shared)

  /** A run of frames within one day: each frame reads the shared state given in
      its `Press` (the clock may have moved it) and reports the transition taken. */
  function RunPresses(shop: Shop, setup: Setup, sched: Schedule, presses: seq<Press>): (r: (Shop, seq<Option<Transition>>))
    ensures |r.1| == |presses|
    ensures shop.shopOpenedMorning ==> r.0.shopOpenedMorning
    ensures shop.shopOpenedAfternoon ==> r.0.shopOpenedAfternoon
    decreases |presses|
  {
    if |presses| == 0 then (shop, [])
    else
      var p := presses[0];
      var near := CheckPlayerNearDoor(shop, setup, p.player, p.door);
      var i := HandleShopInteraction(near, setup, p.cfg, sched, p.player.Some?, p.ePressed);
      var after := UpdateNotification(i.shop, setup, p.deltaTime);
      var rest := RunPresses(after, setup, sched, presses[1..]);
      (rest.0, [i.taken] + rest.1)
  }

  function Count(ts: seq<Option<Transition>>, t: Transition): nat {
    if |ts| == 0 then 0 else (if ts[0] == Some(t) then 1 else 0) + Count(ts[1..], t)
  }

  /** Without a day reset the shop opens at most once in the morning and at most
      once in the afternoon, and not at all once that half-day's flag is set;
      every opening leaves its flag set. */
  lemma {:induction false} OpensAtMostOncePerHalfDay(shop: Shop, setup: Setup, sched: Schedule, presses: seq<Press>)
    ensures var r := RunPresses(shop, setup, sched, presses);
      Count(r.1, MorningOpen) <= (if shop.shopOpenedMorning then 0 else 1)
      && Count(r.1, AfternoonOpen) <= (if shop.shopOpenedAfternoon then 0 else 1)
      && (Count(r.1, MorningOpen) > 0 ==> r.0.shopOpenedMorning)
      && (Count(r.1, AfternoonOpen) > 0 ==> r.0.shopOpenedAfternoon)
    decreases |presses|
  {
    if |presses| > 0 {
      var p := presses[0];
      var near := CheckPlayerNearDoor(shop, setup, p.player, p.door);
      var i := HandleShopInteraction(near, setup, p.cfg, sched, p.player.Some?, p.ePressed);
      var after := UpdateNotification(i.shop, setup, p.deltaTime);
      OpensAtMostOncePerHalfDay(after, setup, sched, presses[1..]);
      if i.taken == Some(MorningOpen) {
        assert Chosen(near, p.cfg, sched) == Some(MorningOpen);
        assert !shop.shopOpenedMorning;
      }
      if i.taken == Some(AfternoonOpen) {
        assert Chosen(near, p.cfg, sched) == Some(AfternoonOpen);
        assert !shop.shopOpenedAfternoon;
      }
      var r := RunPresses(shop, setup, sched, presses);
      assert r.1 == [i.taken] + RunPresses(after, setup, sched, presses[1..]).1;
      assert ([i.taken] + RunPresses(after, setup, sched, presses[1..]).1)[1..] == RunPresses(after, setup, sched, presses[1..]).1;
    }
  }
}

=== FILE: time_manager.dfy ===
/** The game clock of `Assets/src/TimeManager.cs`: minute/hour/day rollover,
    six daily events each announced once per day, the day/night blend factor
    and the `HH:MM` display string. Light colour, intensity and sun rotation
    are rendering and are not modelled; event broadcasting becomes the list of
    events a call fired. */
module TimeManager {
  import opened GameConfig
  import Decimal

  datatype DailyEvent = WakeUp | ShopOpenTime | LunchCloseTime | AfternoonOpenTime | EveningCloseTime | BarOpenTime

  /** The order in which `CheckTimeEvents` tests the events. */
  const EventOrder: seq<DailyEvent> :=
    [WakeUp, ShopOpenTime, LunchCloseTime, AfternoonOpenTime, EveningCloseTime, BarOpenTime]

  /** The time of day at which each event becomes due. Waking compares against
      the wake-up hour alone: the wake-up minute plays no part. */
  function Threshold(e: DailyEvent, sched: Schedule): real {
    match e
    case WakeUp => sched.wakeUpHour
    case ShopOpenTime => sched.morningOpenTime
    case LunchCloseTime => sched.lunchCloseTime
    case AfternoonOpenTime => sched.afternoonOpenTime
    case EveningCloseTime => sched.eveningCloseTime
    case BarOpenTime => sched.barOpenTime
  }

  /** The component's private state: which events were already announced today
      (the six `hasWokenUp` / `hasNotified...` flags). */
  datatype Clock = Clock(notified: set<DailyEvent>)

  /** `Start`: the clock is set to the wake-up hour and minute and the player is
      not yet awake. The announcement flags start cleared. */
  function Start(cfg: Shared, sched: Schedule): (r: (Clock, Shared))
    ensures r.0.notified == {}
    ensures r.1.currentHour == sched.wakeUpHour && r.1.currentMinute == sched.wakeUpMinute
    ensures !r.1.playerIsAwake
    ensures r.1.day == cfg.day && r.1.isShopOpen == cfg.isShopOpen && r.1.isBarOpen == cfg.isBarOpen
  {
    (Clock({}), cfg.(currentHour := sched.wakeUpHour, currentMinute := sched.wakeUpMinute, playerIsAwake := false))
  }

  /** `SetWakeUpTime(hour, minute)`: replaces the configured wake-up time. */
  function SetWakeUpTime(sched: Schedule, hour: real, minute: real): (r: Schedule)
    ensures r.wakeUpHour == hour && r.wakeUpMinute == minute
    ensures r.(wakeUpHour := sched.wakeUpHour, wakeUpMinute := sched.wakeUpMinute) == sched
  {
    sched.(wakeUpHour := hour, wakeUpMinute := minute)
  }

  /** A new wake-up time moves only the wake-up event, and the next `Start`
      puts the clock exactly there. */
  lemma WakeUpTimeTakesEffect(cfg: Shared, sched: Schedule, hour: real, minute: real)
    ensures var s2 := SetWakeUpTime(sched, hour, minute);
      Threshold(WakeUp, s2) == hour
      && (forall e :: e != WakeUp ==> Threshold(e, s2) == Threshold(e, sched))
      && Start(cfg, s2).1.currentHour == hour && Start(cfg, s2).1.currentMinute == minute
  {
  }

  /** Game minutes that pass in one frame of `deltaTime` real seconds.
      `3600 / timeScale` real seconds make a game hour; a zero scale yields an
      infinite hour in single-precision arithmetic and hence no progress. */
  function GameMinutesPerFrame(deltaTime: real, timeScale: real): (m: real)
    ensures m == deltaTime * timeScale / 60.0
    ensures deltaTime >= 0.0 && timeScale >= 0.0 ==> m >= 0.0
  {
    if timeScale == 0.0 then 0.0
    else
      var realSecondsPerGameHour := 3600.0 / timeScale;
      (deltaTime / realSecondsPerGameHour) * 60.0
  }

  /** `ResetDailyFlags`: forgets every announcement and clears the awake, shop-
      open and bar-open flags. */
  function ResetDailyFlags(clock: Clock, cfg: Shared): (r: (Clock, Shared))
    ensures r.0.notified == {}
    ensures !r.1.playerIsAwake && !r.1.isShopOpen && !r.1.isBarOpen
    ensures r.1.currentHour == cfg.currentHour && r.1.currentMinute == cfg.currentMinute && r.1.day == cfg.day
  {
    (Clock({}), cfg.(playerIsAwake := false, isShopOpen := false, isBarOpen := false))
  }

  /** Result of `UpdateTime`: the new state and whether a new day began (the
      `OnNewDay` broadcast). */
  datatype Advance = Advance(clock: Clock, cfg: Shared, newDay: bool)

  /** `UpdateTime` for an increment of game minutes. */
  function UpdateTime(clock: Clock, cfg: Shared, increment: real): (r: Advance)
    ensures AbsoluteMinutes(r.cfg) == AbsoluteMinutes(cfg) + increment
    ensures ClockInRange(cfg) && 0.0 <= increment < 60.0 ==> ClockInRange(r.cfg)
    ensures r.cfg.currentHour != cfg.currentHour ==> cfg.currentMinute + increment >= 60.0
    ensures r.newDay <==> cfg.currentMinute + increment >= 60.0 && cfg.currentHour + 1.0 >= 24.0
    ensures r.cfg.day == if r.newDay then cfg.day + 1 else cfg.day
    ensures r.newDay ==> r.clock.notified == {} && !r.cfg.playerIsAwake && !r.cfg.isShopOpen && !r.cfg.isBarOpen
    ensures !r.newDay ==>
      (r.clock == clock && r.cfg.playerIsAwake == cfg.playerIsAwake
       && r.cfg.isShopOpen == cfg.isShopOpen && r.cfg.isBarOpen == cfg.isBarOpen)
  {
    var minute := cfg.currentMinute + increment;
    if minute >= 60.0 then
      var hour := cfg.currentHour + 1.0;
      if hour >= 24.0 then
        var next := cfg.(currentMinute := minute - 60.0, currentHour := hour - 24.0, day := cfg.day + 1);
        var reset := ResetDailyFlags(clock, next);
        Advance(reset.0, reset.1, true)
      else
        Advance(clock, cfg.(currentMinute := minute - 60.0, currentHour := hour), false)
    else
      Advance(clock, cfg.(currentMinute := minute), false)
  }

  /** Result of `CheckTimeEvents`: the new state and the events fired, in order. */
  datatype Check = Check(clock: Clock, cfg: Shared, fired: seq<DailyEvent>)

  predicate Due(e: DailyEvent, clock: Clock, t: real, sched: Schedule) {
    e !in clock.notified && t >= Threshold(e, sched)
  }

  predicate NoRepeats(s: seq<DailyEvent>) {
    forall i, j :: 0 <= i < j < |s| ==> s[i] != s[j]
  }

  /** The events of `order` that are due, in the order given. */
  function DueIn(order: seq<DailyEvent>, clock: Clock, t: real, sched: Schedule): seq<DailyEvent>
    decreases |order|
  {
    if |order| == 0 then []
    else (if Due(order[0], clock, t, sched) then [order[0]] else []) + DueIn(order[1..], clock, t, sched)
  }

  /** Announcing an event outside `order` does not change which of its events are due. */
  lemma {:induction false} DueInIgnores(order: seq<DailyEvent>, clock: Clock, e: DailyEvent, t: real, sched: Schedule)
    ensures e !in order ==> DueIn(order, Clock(clock.notified + {e}), t, sched) == DueIn(order, clock, t, sched)
    decreases |order|
  {
    if |order| > 0 && e !in order {
      DueInIgnores(order[1..], clock, e, t, sched);
    }
  }

  /** One guarded announcement: an event not yet announced today whose time has
      come is marked announced, then fired; waking sets `playerIsAwake`, the bar
      opening sets `isBarOpen`. */
  function CheckOne(clock: Clock, cfg: Shared, e: DailyEvent, t: real, sched: Schedule): Check {
    if Due(e, clock, t, sched) then
      var cfg' := if e == WakeUp then cfg.(playerIsAwake := true)
                  else if e == BarOpenTime then cfg.(isBarOpen := true)
                  else cfg;
      Check(Clock(clock.notified + {e}), cfg', [e])
    else Check(clock, cfg, [])
  }

  /** The checks of `order`, in order, at time of day `t`. */
  function CheckAll(clock: Clock, cfg: Shared, t: real, sched: Schedule, order: seq<DailyEvent>): (r: Check)
    ensures forall e :: e in r.fired <==> e in order && Due(e, clock, t, sched)
    ensures NoRepeats(r.fired)
    ensures r.clock.notified == clock.notified + set e | e in r.fired
    ensures r.cfg.playerIsAwake <==> cfg.playerIsAwake || WakeUp in r.fired
    ensures r.cfg.isBarOpen <==> cfg.isBarOpen || BarOpenTime in r.fired
    ensures r.cfg.(playerIsAwake := cfg.playerIsAwake, isBarOpen := cfg.isBarOpen) == cfg
    decreases |order|
  {
    if |order| == 0 then Check(clock, cfg, [])
    else
      var first := CheckOne(clock, cfg, order[0], t, sched);
      var rest := CheckAll(first.clock, first.cfg, t, sched, order[1..]);
      Check(rest.clock, rest.cfg, first.fired + rest.fired)
  }

  /** With an order that lists no event twice, the events fire in that order:
      the log is the order filtered by `Due`, every check reading the clock as
      the call found it. */
  lemma {:induction false} CheckAllInOrder(clock: Clock, cfg: Shared, t: real, sched: Schedule, order: seq<DailyEvent>)
    requires NoRepeats(order)
    ensures CheckAll(clock, cfg, t, sched, order).fired == DueIn(order, clock, t, sched)
    decreases |order|
  {
    if |order| > 0 {
      var first := CheckOne(clock, cfg, order[0], t, sched);
      assert order[0] !in order[1..] by {
        forall i | 0 <= i < |order[1..]|
          ensures order[1..][i] != order[0]
        {
          assert order[1..][i] == order[i + 1];
        }
      }
      assert NoRepeats(order[1..]) by {
        forall i, j | 0 <= i < j < |order[1..]|
          ensures order[1..][i] != order[1..][j]
        {
          assert order[1..][i] == order[i + 1] && order[1..][j] == order[j + 1];
        }
      }
      CheckAllInOrder(first.clock, first.cfg, t, sched, order[1..]);
      DueInIgnores(order[1..], clock, order[0], t, sched);
    }
  }

  /** `CheckTimeEvents`: every event that is due and not yet announced today
      fires, once, in the fixed order; several may fire in one call. */
  function CheckTimeEvents(clock: Clock, cfg: Shared, sched: Schedule): (r: Check)
    ensures forall e :: e in r.fired <==> Due(e, clock, TimeOfDay(cfg), sched)
    ensures r.fired == DueIn(EventOrder, clock, TimeOfDay(cfg), sched)
    ensures NoRepeats(r.fired)
    ensures r.clock.notified == clock.notified + set e | e in r.fired
    ensures r.cfg.playerIsAwake <==> cfg.playerIsAwake || WakeUp in r.fired
    ensures r.cfg.isBarOpen <==> cfg.isBarOpen || BarOpenTime in r.fired
    ensures r.cfg.(playerIsAwake := cfg.playerIsAwake, isBarOpen := cfg.isBarOpen) == cfg
  {
    forall e: DailyEvent
      ensures e in EventOrder
    {
      EventListed(e);
    }
    CheckAllInOrder(clock, cfg, TimeOfDay(cfg), sched, EventOrder);
    CheckAll(clock, cfg, TimeOfDay(cfg), sched, EventOrder)
  }

  lemma EventListed(e: DailyEvent)
    ensures e in EventOrder
  {
    match e
    case WakeUp => assert EventOrder[0] == e;
    case ShopOpenTime => assert EventOrder[1] == e;
    case LunchCloseTime => assert EventOrder[2] == e;
    case AfternoonOpenTime => assert EventOrder[3] == e;
    case EveningCloseTime => assert EventOrder[4] == e;
    case BarOpenTime => assert EventOrder[5] == e;
  }

  /** Result of one frame of the clock: time advanced, then events checked. */
  datatype Frame = Frame(clock: Clock, cfg: Shared, newDay: bool, fired: seq<DailyEvent>)

  /** `Update` without the lighting pass (which writes no clock state). */
  function Update(clock: Clock, cfg: Shared, sched: Schedule, increment: real): (r: Frame)
    ensures AbsoluteMinutes(r.cfg) == AbsoluteMinutes(cfg) + increment
    ensures r.cfg.day == if r.newDay then cfg.day + 1 else cfg.day
    ensures r.newDay <==> cfg.currentMinute + increment >= 60.0 && cfg.currentHour + 1.0 >= 24.0
    ensures forall e :: e in r.fired <==>
      (r.newDay || e !in clock.notified) && TimeOfDay(r.cfg) >= Threshold(e, sched)
    ensures NoRepeats(r.fired)
    ensures forall e :: e in r.clock.notified <==> (!r.newDay && e in clock.notified) || e in r.fired
  {
    var a := UpdateTime(clock, cfg, increment);
    var c := CheckTimeEvents(a.clock, a.cfg, sched);
    assert c.cfg.currentHour == a.cfg.currentHour && c.cfg.currentMinute == a.cfg.currentMinute
      && c.cfg.day == a.cfg.day;
    assert a.clock.notified == if a.newDay then {} else clock.notified;
    Frame(c.clock, c.cfg, a.newDay, c.fired)
  }

  /** Number of times `e` occurs in `s`. */
  function Occurrences(s: seq<DailyEvent>, e: DailyEvent): nat {
    if |s| == 0 then 0 else (if s[0] == e then 1 else 0) + Occurrences(s[1..], e)
  }

  lemma OccurrencesAppend(a: seq<DailyEvent>, b: seq<DailyEvent>, e: DailyEvent)
    ensures Occurrences(a + b, e) == Occurrences(a, e) + Occurrences(b, e)
  {
    if |a| > 0 {
      assert (a + b)[1..] == a[1..] + b;
      OccurrencesAppend(a[1..], b, e);
    } else {
      assert a + b == b;
    }
  }

  lemma {:induction false} OccurrencesNoRepeats(s: seq<DailyEvent>, e: DailyEvent)
    requires NoRepeats(s)
    ensures Occurrences(s, e) == if e in s then 1 else 0
  {
    if |s| > 0 {
      assert NoRepeats(s[1..]);
      OccurrencesNoRepeats(s[1..], e);
      if s[0] == e {
        assert e !in s[1..];
      }
    }
  }

  /** The outcome of a run of frames: final state, all events fired in order, and
      the number of day rollovers. */
  datatype Run = Run(clock: Clock, cfg: Shared, fired: seq<DailyEvent>, days: nat)

  function RunFrames(clock: Clock, cfg: Shared, sched: Schedule, increments: seq<real>): Run
    decreases |increments|
  {
    if |increments| == 0 then Run(clock, cfg, [], 0)
    else
      var f := Update(clock, cfg, sched, increments[0]);
      var rest := RunFrames(f.clock, f.cfg, sched, increments[1..]);
      Run(rest.clock, rest.cfg, f.fired + rest.fired, rest.days + (if f.newDay then 1 else 0))
  }

  /** Each event fires at most once per day: over any run with `days` rollovers
      it fires at most `days + 1` times, and at most `days` times when it had
      already been announced when the run began. */
  lemma {:induction false} AtMostOncePerDay(clock: Clock, cfg: Shared, sched: Schedule, increments: seq<real>, e: DailyEvent)
    ensures var r := RunFrames(clock, cfg, sched, increments);
      Occurrences(r.fired, e) <= r.days + (if e in clock.notified then 0 else 1)
    decreases |increments|
  {
    if |increments| > 0 {
      var f := Update(clock, cfg, sched, increments[0]);
      var a := UpdateTime(clock, cfg, increments[0]);
      var rest := RunFrames(f.clock, f.cfg, sched, increments[1..]);
      AtMostOncePerDay(f.clock, f.cfg, sched, increments[1..], e);
      OccurrencesAppend(f.fired, rest.fired, e);
      OccurrencesNoRepeats(f.fired, e);
      assert e in f.fired ==> e in f.clock.notified;
      assert e in f.fired ==> e !in a.clock.notified;
    }
  }

  /** Within a single day (no rollover in the run) each event fires at most once. */
  lemma AtMostOnceWithinDay(clock: Clock, cfg: Shared, sched: Schedule, increments: seq<real>, e: DailyEvent)
    requires RunFrames(clock, cfg, sched, increments).days == 0
    ensures Occurrences(RunFrames(clock, cfg, sched, increments).fired, e) <= 1
    ensures e in clock.notified ==> Occurrences(RunFrames(clock, cfg, sched, increments).fired, e) == 0
  {
    AtMostOncePerDay(clock, cfg, sched, increments, e);
  }

  /** The lighting blend on the dawn ramp, 4:00 to 6:00. */
  function Dawn(hour: real): real { (hour - 4.0) / 2.0 }

  /** The lighting blend on the dusk ramp, 20:00 to 22:00. */
  function Dusk(hour: real): real { 1.0 - ((hour - 20.0) / 2.0) }

  /** `dayNightBlend` of `UpdateLighting`: 1 by day, ramps at dawn and dusk, 0 by night. */
  function DayNightBlend(hour: real): (b: real)
    ensures 0.0 <= b <= 1.0
  {
    if 6.0 <= hour < 20.0 then 1.0
    else if 20.0 <= hour < 22.0 then Dusk(hour)
    else if 4.0 <= hour < 6.0 then Dawn(hour)
    else 0.0
  }

  /** Full daylight exactly from 6:00 to 20:00 (both included). */
  lemma FullDaylight(hour: real)
    ensures DayNightBlend(hour) == 1.0 <==> 6.0 <= hour <= 20.0
  {
  }

  /** Full night exactly up to 4:00 and from 22:00 on (both included). */
  lemma FullNight(hour: real)
    ensures DayNightBlend(hour) == 0.0 <==> hour <= 4.0 || hour >= 22.0
  {
  }

  /** The ramps meet the flat pieces at 4, 6, 20 and 22: the curve has no jumps. */
  lemma BlendSeams()
    ensures Dawn(4.0) == 0.0 && Dawn(6.0) == 1.0 && Dusk(20.0) == 1.0 && Dusk(22.0) == 0.0
    ensures DayNightBlend(4.0) == Dawn(4.0) && DayNightBlend(6.0) == Dawn(6.0)
    ensures DayNightBlend(20.0) == Dusk(20.0) && DayNightBlend(22.0) == Dusk(22.0)
  {
  }

  /** The light grows through the dawn ramp and fades through the dusk ramp. */
  lemma BlendMonotoneOnRamps(a: real, b: real)
    requires a <= b
    ensures 4.0 <= a && b <= 6.0 ==> DayNightBlend(a) <= DayNightBlend(b)
    ensures 20.0 <= a && b <= 22.0 ==> DayNightBlend(a) >= DayNightBlend(b)
  {
  }

  /** `GetFormattedTime`: floored hour and minute, each `D2`, joined by a colon. */
  function GetFormattedTime(cfg: Shared): (s: string)
    ensures |s| >= 5
    ensures ClockInRange(cfg) ==>
      (|s| == 5 && s[2] == ':' && Decimal.AllDigits(s[..2]) && Decimal.AllDigits(s[3..]))
  {
    var hour := cfg.currentHour.Floor;
    var minute := cfg.currentMinute.Floor;
    Decimal.FormatD2(hour) + ":" + Decimal.FormatD2(minute)
  }

  /** Reading the display string back gives the floored hour and minute. */
  lemma FormattedTimeRoundTrip(cfg: Shared)
    requires ClockInRange(cfg)
    ensures Decimal.ParseNat(GetFormattedTime(cfg)[..2]) == cfg.currentHour.Floor
    ensures Decimal.ParseNat(GetFormattedTime(cfg)[3..]) == cfg.currentMinute.Floor
  {
    var s := GetFormattedTime(cfg);
    var h := Decimal.FormatD2(cfg.currentHour.Floor);
    var m := Decimal.FormatD2(cfg.currentMinute.Floor);
    assert s[..2] == h;
    assert s[3..] == m;
    Decimal.FormatD2RoundTrip(cfg.currentHour.Floor);
    Decimal.FormatD2RoundTrip(cfg.currentMinute.Floor);
  }
}
